=== FILE: README.md ===
# agentDesk backend core in Dafny

agentDesk is an Express backend for "agents": named records with a list of
attached tools. Users can chat with an agent through an LLM, and a tool
dispatcher can run a tool (a GitHub pull-request summarizer, a Slack
notifier, a plain LLM chat, or a generic HTTP call). This project models
the decision logic of the backend's controllers and services as pure
functions over immutable data, and proves properties of it.

- `Base`: `Option`, `Settled` (the settled state of a promise: fulfilled
  or rejected with an error message), and first-match search (`find` and
  `findIndex`).
- `JsValues`: the dynamically typed values in request bodies, tool configs
  and tool arguments. Also JavaScript truthiness, `||`, `??`, and `String(v)`.
- `Strings`: `String.prototype.trim`.
- `Io`: HTTP responses, chat messages, and the trace of outbound calls. A
  `World` record of total functions answers every outbound call: the LLM,
  GitHub, the Slack webhook, generic HTTP and `JSON.parse`. Each
  asynchronous operation returns its result together with the calls it made,
  in order. So "no LLM call" is a statement about that trace.
- `Registry`: the constant `availableTools` table.
- `AgentModel`: `Agent` and `ToolEntry`, the in-memory agent list, and the
  lookups on it.
- `AgentTools`: list, add and remove tools on the in-memory list.
- `Template`: the `http` handler's `{{word}}` placeholder substitution.
- `SlackClient`, `GithubSummarizer`, `ToolInvoker`: the tool dispatcher
  and its handlers.
- `Chat`: the chat handler.
- `Agents`: agent create, get, update and delete, over a database modelled as
  two maps (`agent` and `chatLog`) plus the in-memory list.
- `System`: replays any sequence of store-changing requests from empty
  stores, and proves what every reachable state satisfies.

There are two agent stores, and the model keeps them apart exactly as the
code does:
- The in-memory list is read and written by the tool and chat handlers.
- The database is used by get, update and delete.
- Create writes to both, under two different fresh ids. So the id returned
  to the client names no database row.

Create stores only `tools` in an agent's config. The chat handler demands
`apiKey` and `model` there. So after any history of requests, chat answers
404 or 500 and never reaches the LLM (`System.ChatNeverReplies`).

The model follows the code as written, in particular:
- The chat handler does not parse tool directives, dispatch tools,
  summarise, or write chat logs.
- It checks credentials (500) before it checks the message (400).
- The Slack tool's call site passes `(webhookUrl, channel, args.text)` to
  the two-parameter `postToSlack(webhookUrl, text)`. So the configured
  channel is posted as the message text and `args.text` is dropped
  (`ToolInvoker.SlackPostsChannel`).
- The GitHub summarizer takes its token, LLM key and model from the process
  environment, not from the tool config.
- An unknown handler throws a plain `Unknown handler: <handler>` error.
- Create does not validate the tools it is given. So an agent can start
  with duplicate tool keys (`System.CreateAcceptsDuplicateKeys`).

Routing: `GET /:id` (`backend/src/routes/agents.ts:17`) is registered before
`GET /tools` (`backend/src/routes/agents.ts:24`). A request for `/agents/tools`
therefore reaches `getAgent` with the id `tools`.

## Model

| member | source | states |
|---|---|---|
| `Registry.FindMetadata` | backend/src/controllers/agentTools.ts:24 | the registry lookup finds an entry with the requested key exactly when one exists |
| `Registry.RegistryContents` | backend/src/services/availableTools.ts:8-39 | the registry holds exactly two tools, `githubSummarizer` then `slackNotifier`, with distinct keys |
| `Registry.RegisteredKeys` | backend/src/services/availableTools.ts:8-39 | a key is registered iff it is `githubSummarizer` or `slackNotifier`; `groqChat` and `http` are not keys |
| `Registry.RequiredConfigFields` | backend/src/services/availableTools.ts:13-36 | the summarizer requires owner, repo, token, apiKey, model; the notifier requires webhookUrl, channel |
| `AgentModel.FindAgent` | backend/src/controllers/agentTools.ts:6 | the lookup yields the first agent with the id, or nothing exactly when no agent has it |
| `AgentModel.FindToolIndex` | backend/src/controllers/agentTools.ts:43 | the lookup yields the first entry with the key, or nothing exactly when no entry has it |
| `AgentTools.ListTools` | backend/src/controllers/agentTools.ts:8-15 | 404 when no agent has the id; otherwise 200 with the first matching agent's tools |
| `AgentTools.AddTool` | backend/src/controllers/agentTools.ts:17-35 | 404 for an unknown agent, 400 for an unregistered key, 409 for an attached key, each leaving the list unchanged; otherwise 201 with the entry appended to that agent only |
| `AgentTools.RemoveTool` | backend/src/controllers/agentTools.ts:37-50 | 404 for an unknown agent or absent key with no change; otherwise returns the first entry with the key and removes exactly it, keeping the order of the rest |
| `AgentTools.UnknownKeyWinsOverDuplicate` | backend/src/controllers/agentTools.ts:24-32 | an unregistered key that is also attached still yields 400, never 409 |
| `AgentTools.DispatcherOnlyKeysRefused` | backend/src/controllers/agentTools.ts:24-28 | attaching under the keys `groqChat` or `http` is refused with 400 |
| `AgentTools.AddToolKeepsKeysUnique` | backend/src/controllers/agentTools.ts:29-33 | if every agent's tool keys are distinct before an add, they are distinct after it |
| `AgentTools.RemoveToolKeepsKeysUnique` | backend/src/controllers/agentTools.ts:43-49 | removing keeps keys distinct, and with distinct keys the removed key is gone afterwards |
| `AgentTools.AddThenRemove` | backend/src/controllers/agentTools.ts:29-49 | a successful add followed by a remove of the same key returns the entry and restores the original list |
| `Template.Subst` | backend/src/services/tools.ts:37 | the global replace in one left-to-right pass; when no replacement is longer than its placeholder, the text does not grow |
| `Template.MatchPrefix` | backend/src/services/tools.ts:37 | a match is `{{` + a nonempty word + `}}` and covers exactly that text |
| `Template.MatchPrefixComplete` | backend/src/services/tools.ts:37 | conversely, text that starts with `{{word}}` always matches, capturing that word |
| `Template.ArgText` | backend/src/services/tools.ts:37 | a placeholder's replacement is the argument's string form, or "" when it is missing or falsy |
| `Template.NoPlaceholderUnchanged` | backend/src/services/tools.ts:37 | a template without placeholders is returned unchanged |
| `Template.SelfReplacementIsIdentity` | backend/src/services/tools.ts:37 | replacing each placeholder by its own text restores the template, so the scan loses and duplicates nothing |
| `Template.SinglePass` | backend/src/services/tools.ts:37 | a placeholder becomes its replacement verbatim and scanning resumes after it: replacement text is never rescanned |
| `Template.FalsyArgumentsVanish` | backend/src/services/tools.ts:37 | a placeholder whose argument is missing or falsy becomes the empty string |
| `SlackClient.BuildResponse` | backend/src/services/slackClient.ts:19-29 | status is success iff HTTP 200, with the fixed sent message; otherwise error with `Slack webhook failed: <status> <statusText>`; text is always the input text |
| `SlackClient.PostToSlack` | backend/src/services/slackClient.ts:9-35 | exactly one POST of `{text}`; a rejected POST is rethrown unchanged; an answered one yields the JSON serialisation of the record |
| `SlackClient.SerialisedFields` | backend/src/services/slackClient.ts:19-31 | the record passed to `JSON.stringify` has exactly status, text and message; status reads "success" iff 200 and "error" otherwise; text is the input |
| `GithubSummarizer.LatestPrNumber` | backend/src/services/githubSummarizer.ts:15-25 | one list request; the first listed number, or -1 for an empty list; a failed request rejects |
| `GithubSummarizer.SummarizeNumber` | backend/src/services/githubSummarizer.ts:36-84 | -1 gives the no-pull sentence with no request; 404 gives the missing-pull sentence; other non-ok statuses reject with the GitHub API error; ok asks the LLM once with the two-message prompt and returns its answer |
| `GithubSummarizer.SummarizePr` | backend/src/services/githubSummarizer.ts:27-85 | an explicit number runs exactly the fetch-and-summarise flow for that number; "latest" whose list request fails rejects with that error after the one request; at most one LLM call in any run, and at most two requests without "latest" |
| `GithubSummarizer.LatestOnEmptyRepository` | backend/src/services/githubSummarizer.ts:21-38 | "latest" on an empty repository yields `No pull requests found in owner/repo` after only the list request |
| `GithubSummarizer.LatestIsFirstListed` | backend/src/services/githubSummarizer.ts:24-34 | "latest" behaves as the first listed number, after one extra list request |
| `GithubSummarizer.ExplicitNoPull` | backend/src/services/githubSummarizer.ts:36-38 | an explicit -1 yields the no-pull sentence without any request |
| `GithubSummarizer.ApiErrorRejects` | backend/src/services/githubSummarizer.ts:54-56 | an error status other than 404 rejects with `GitHub API error: <status> <statusText>` and no LLM call |
| `GithubSummarizer.MissingPullWithoutLlm` | backend/src/services/githubSummarizer.ts:50-52 | a 404 yields `Pull request #n does not exist in owner/repo` and no LLM call |
| `GithubSummarizer.RejectionsWithoutLlm` | backend/src/services/githubSummarizer.ts:40-56 | for an explicit number, every rejection made without the LLM is the failed fetch's error or `GitHub API error: <status> <statusText>` for a non-ok, non-404 status |
| `GithubSummarizer.AnswersWithoutLlm` | backend/src/services/githubSummarizer.ts:36-56 | every fulfilled answer made without the LLM is one of the two fixed sentences |
| `GithubSummarizer.SuccessfulFetchAsksLlmOnce` | backend/src/services/githubSummarizer.ts:63-84 | an ok fetch leads to exactly one LLM call, and its answer is the result |
| `GithubSummarizer.PromptTrim` | backend/src/services/githubSummarizer.ts:70-79 | `.trim()` drops the opening line break and closing indentation of the template; of the interpolated text only the URL's trailing whitespace goes |
| `GithubSummarizer.PrMessages` | backend/src/services/githubSummarizer.ts:63-81 | exactly a system message then a user message; the user message is the fixed lines with number, title, body or `(no description)` and the URL, end-trimmed |
| `GithubSummarizer.PromptLayout` | backend/src/services/githubSummarizer.ts:70-79 | the trimmed user message is the fixed lines with number, title, body or `(no description)`, and the URL without trailing whitespace |
| `GithubSummarizer.MissingPullExample` | backend/src/services/githubSummarizer.ts:50-52 | pull 42 missing from acme/widgets yields `Pull request #42 does not exist in acme/widgets` |
| `Strings.TrimFramed` | backend/src/services/githubSummarizer.ts:70-79 | trimming removes the leading line break and trailing indentation of the template and nothing inside the text |
| `ToolInvoker.HttpBody` | backend/src/services/tools.ts:35-38 | without a truthy template the body is the args object itself; with a string template it is the parse of the substituted template; any other truthy template (no `replace` method) rejects |
| `ToolInvoker.DataText` | backend/src/services/tools.ts:40 | string response data is returned verbatim, other data as its indented JSON serialisation |
| `ToolInvoker.HttpTool` | backend/src/services/tools.ts:34-41 | a failed body build makes no request; otherwise exactly one request with the configured url, method and headers, whose data or error is the result |
| `ToolInvoker.InvokeTool` | backend/src/services/tools.ts:13-45 | an unknown (or non-string) handler throws `Unknown handler: <handler>` with no request; a known handler with a null or undefined config throws a TypeError with no request; otherwise githubSummarizer is `summarizePr(config, args.prNumber)` with its result and calls, groqChat sends exactly [system prompt or "", message] with the config's key and model and returns the reply, slackNotifier is `postToSlack(webhookUrl, channel)` with its result and its one POST, http is the http handler |
| `ToolInvoker.DispatchIgnoresKey` | backend/src/services/tools.ts:17 | dispatch depends on the handler and config, never on the key or the entry's other fields |
| `ToolInvoker.SummarizerMissingPull` | backend/src/services/tools.ts:18-20 | a summarizer entry asked for an explicit pull request that GitHub answers 404 yields the missing-pull sentence after the one fetch, with no LLM call |
| `ToolInvoker.SlackFailureRethrown` | backend/src/services/slackClient.ts:32-35 | a failed Slack POST makes the tool reject with the same error, after that one POST |
| `ToolInvoker.SlackPostsChannel` | backend/src/services/tools.ts:22-25 | the Slack outcome does not depend on the arguments, and (for a non-null config) its text field is the configured channel |
| `ToolInvoker.HttpWithoutTemplateSendsArgs` | backend/src/services/tools.ts:36-38 | without a body template the single request's body is the arguments object |
| `ToolInvoker.HttpResponseText` | backend/src/services/tools.ts:39-40 | the http result is the string data verbatim, or the indented serialisation of other data |
| `Chat.ChatMessages` | backend/src/controllers/chat.ts:30-33 | the prompt is [system = description unless null or undefined, else `You are <name>.`; user = message] |
| `Chat.ChatAgent` | backend/src/controllers/chat.ts:6-42 | 404 first, then 500 for missing credentials, then 400 for a missing message, all without calls; otherwise one LLM call and 200 with its text or 502 |
| `Chat.ReplyRequiresEverything` | backend/src/controllers/chat.ts:14-37 | a 200 needs a found agent, both credentials and a message, costs exactly one LLM call, and carries the LLM text |
| `Chat.BareAgentsNeverReply` | backend/src/controllers/chat.ts:14-21 | agents whose config holds only tools get 404 or 500 and cause no call |
| `Agents.CreateAgent` | backend/src/controllers/agents.ts:6-29 | a falsy name or absent config gives 400 with no write; a taken database id rejects before the list is touched; otherwise one agent with config {tools} is appended, a tool-less row is inserted under the second id, and 201 returns the agent |
| `Agents.GetAgent` | backend/src/controllers/agents.ts:36-43 | 200 with the row exactly when the id is in the database, 404 otherwise |
| `Agents.UpdateAgent` | backend/src/controllers/agents.ts:45-75 | 404 for an absent id and 500 for an absent config, both without change; otherwise only that row's tools change, to config.tools or [] |
| `Agents.LogsWithout` | backend/src/controllers/agents.ts:87 | the surviving logs are exactly the logs of other agents |
| `Agents.DeleteAgent` | backend/src/controllers/agents.ts:77-95 | 404 for an absent id with no change; otherwise the row is removed, all its logs are gone, other agents' logs are untouched, and 200 returns the row |
| `Agents.CreatedIdUnknownToDatabase` | backend/src/controllers/agents.ts:12-28 | the id returned by create finds no database row, and the stored row has no tools |
| `Agents.CreateKeepsWellKeyed` | backend/src/controllers/agents.ts:21-25 | every database row stays stored under its own id |
| `Agents.UpdateKeepsIdentity` | backend/src/controllers/agents.ts:60-68 | update never changes any row's id, name or description, whatever the body says |
| `Agents.DeleteIsFinal` | backend/src/controllers/agents.ts:80-91 | after delete the agent is not found and has no logs, and a second delete answers 404 with no change |
| `System.StoresStayApart` | backend/src/controllers/agents.ts:36-95 | database operations leave the in-memory list unchanged, and tool operations leave the database unchanged |
| `System.ApplyKeepsBare` | backend/src/controllers/agents.ts:16-18 | no store-changing request adds a config field other than tools to an in-memory agent |
| `System.ReplayKeepsBare` | backend/src/controllers/agents.ts:16-18 | after any request history from empty stores, in-memory configs hold only tools |
| `System.ChatNeverReplies` | backend/src/controllers/chat.ts:14-21 | after any request history from empty stores, chat answers 404 or 500 and never calls the LLM |
| `System.ApplyKeepsKeysUnique` | backend/src/controllers/agentTools.ts:29-33 | every request keeps tool keys distinct when a create brings distinct keys |
| `System.ReplayKeepsKeysUnique` | backend/src/controllers/agentTools.ts:29-33 | tool keys stay distinct over any history whose creates bring distinct keys |
| `System.CreateAcceptsDuplicateKeys` | backend/src/controllers/agents.ts:16-18 | one create with a repeated key produces an agent with duplicate tool keys |

## Left out

- The frontend, the Express wiring (`index.ts`, the routers) and the logging calls (`console.error`) are not modelled. They hold no decision logic.
- `listAgents`, `listAvailableTools`, `getHistory` and `getLogs` are not modelled. Each is a single database query or an echo of a constant.
- `metalogsRouter.ts` imports a `getAllLogs` that `metadataLogs.ts` does not export. Wiring is out of scope.
- The LLM client (`groqClient.ts`), `fetch` and `axios` are not modelled. They are network I/O, so `World` answers them as uninterpreted functions.
- Axios rejects non-2xx statuses by default. That configuration lives in the client library, so the webhook answer is an input and every answered status is mapped as the code maps it.
- `JSON.parse` and `JSON.stringify` are not modelled. `JSON.parse` is a `World` function. A serialisation is kept symbolic as `JsonText(value, indent)`, so key order and the omission of `undefined` fields are not modelled.
- uuid generation is replaced by the two ids passed to `CreateAgent`. Their freshness is a property of uuid, not of the code.
- Numbers are integers only. Floating-point values and their string forms are not modelled.
- Property reads see only a record's own fields. Inherited properties such as `args["constructor"]` are not modelled.
- A tool entry's `key` is modelled as a string. addTool answers 400 to any other key, because it matches no registry key. An entry stored through create with a non-string key never equals the route's string `toolKey`, so remove answers 404 for it.
- A tool-entry request body that is an array is not modelled separately. Its `key` reads as `undefined`, so addTool answers 400 "Unknown tool key", just as for a non-string key. A `null` body never reaches addTool, because the strict JSON parser (`backend/src/index.ts:9`) refuses it.
- A request body's `config.tools` is modelled only as absent, null or an array of tool entries. Other shapes would make later handlers throw and are not modelled.
- A create or update body's `config` is modelled as absent or as an object. Scalar configs are not modelled.
- Database failures are not modelled, except the duplicate-id insert in create. Prisma's type validation of rows and the order in which rows are listed are not modelled either.
- `GithubSummarizer.LatestPrNumber` sees the pull list only as the `number` field of each listed pull. A response body that is not an array is folded into a rejected request, although for some non-array JSON bodies the code would compute something else.
- `GithubSummarizer.SummarizeNumber` does not record request headers other than the GitHub authorization. The pull response's JSON parse failures are not modelled.
- Each request is modelled as one atomic step. Create awaits the insert before the push, and update and delete await between the lookup and the write (`backend/src/controllers/agents.ts:23-27`, `53-67`, `80-89`). So interleavings such as an update racing a delete (which answers 500, not 404) are not modelled. The in-memory tool and chat handlers are synchronous up to their first outbound call, so the in-memory invariants do not depend on this.
- Express's treatment of a rejected handler promise (create's failed insert) is left to the framework and not modelled.
- Chat-log writes, tool-directive parsing and tool dispatch from chat are not modelled, because the code does not do them.
- The config schemas in the registry are not modelled as a check on tool configs, because nothing in the code enforces them.

=== FILE: agent_model.dfy ===
/** The in-memory agent records (`models/agent.ts`). */
module AgentModel {
  import opened Base
  import opened JsValues

  /** A tool attached to an agent, stored exactly as the request body sent it.
      `handler` selects the dispatcher branch and may differ from `key`.
      Neither `handler` nor `config` is validated: either can be any value,
      `null` included. `rest` holds the body's other fields, which are stored
      and echoed unchanged. */
  datatype ToolEntry = ToolEntry(key: string, handler: Value, config: Value, rest: map<string, Value>)

  /** An agent's `config` object: its `tools` array, and `extra`, the object's
      other fields (the chat handler reads `apiKey` and `model` from them). */
  datatype AgentConfig = AgentConfig(tools: seq<ToolEntry>, extra: map<string, Value>)

  /** `name` and `description` hold whatever the create request carried. */
  datatype Agent = Agent(id: string, name: Value, description: Value, config: AgentConfig)

  /** `agents.find(a => a.id === id)`, as an index into the list. */
  function FindAgent(agents: seq<Agent>, id: string): (r: Option<nat>)
    ensures r.None? <==> forall j :: 0 <= j < |agents| ==> agents[j].id != id
    ensures r.Some? ==> r.value < |agents| && agents[r.value].id == id
    ensures r.Some? ==> forall j :: 0 <= j < r.value ==> agents[j].id != id
  {
    FirstIndex(agents, (a: Agent) => a.id == id)
  }

  /** No agent in the list has this id. */
  predicate NoAgent(agents: seq<Agent>, id: string) {
    forall j :: 0 <= j < |agents| ==> agents[j].id != id
  }

  /** `tools.findIndex(t => t.key === key)` */
  function FindToolIndex(tools: seq<ToolEntry>, key: string): (r: Option<nat>)
    ensures r.None? <==> forall j :: 0 <= j < |tools| ==> tools[j].key != key
    ensures r.Some? ==> r.value < |tools| && tools[r.value].key == key
    ensures r.Some? ==> forall j :: 0 <= j < r.value ==> tools[j].key != key
  {
    FirstIndex(tools, (t: ToolEntry) => t.key == key)
  }

  predicate HasKey(tools: seq<ToolEntry>, key: string) {
    exists j :: 0 <= j < |tools| && tools[j].key == key
  }

  /** No two entries of the list share a key. */
  predicate UniqueKeys(tools: seq<ToolEntry>) {
    forall i, j :: 0 <= i < j < |tools| ==> tools[i].key != tools[j].key
  }

  /** Every agent's tool keys are pairwise distinct. */
  predicate AllKeysUnique(agents: seq<Agent>) {
    forall j :: 0 <= j < |agents| ==> UniqueKeys(agents[j].config.tools)
  }

  /** Replace the tool list of the agent at index `i`, keeping everything else. */
  function WithTools(agents: seq<Agent>, i: nat, tools: seq<ToolEntry>): (r: seq<Agent>)
    requires i < |agents|
    ensures |r| == |agents|
    ensures r[i].id == agents[i].id && r[i].name == agents[i].name
    ensures r[i].description == agents[i].description
    ensures r[i].config.tools == tools && r[i].config.extra == agents[i].config.extra
    ensures forall j :: 0 <= j < |agents| && j != i ==> r[j] == agents[j]
  {
    agents[i := agents[i].(config := agents[i].config.(tools := tools))]
  }
}

=== FILE: agent_tools.dfy ===
/** Listing, attaching and detaching tools on the in-memory agent list
    (`controllers/agentTools.ts`). Each handler is a function from the list
    and the request to the response and the list afterwards. */
module AgentTools {
  import opened Base
  import opened AgentModel
  import opened Registry
  import opened Io

  /** A handler's response together with the in-memory agent list after it. */
  datatype Step<+T> = Step(response: Response<T>, agents: seq<Agent>)

  /** GET /agents/:id/tools */
  function ListTools(agents: seq<Agent>, id: string): (r: Response<seq<ToolEntry>>)
    ensures NoAgent(agents, id) ==> r == Response(404, ErrorBody("Agent not found"))
    ensures !NoAgent(agents, id) ==>
      exists i :: 0 <= i < |agents| && agents[i].id == id && NoAgent(agents[..i], id)
        && r == Response(200, Body(agents[i].config.tools))
  {
    match FindAgent(agents, id)
    case None => Response(404, ErrorBody("Agent not found"))
    case Some(i) =>
      assert NoAgent(agents[..i], id);
      Response(200, Body(agents[i].config.tools))
  }

  /** POST /agents/:id/tools with body `entry`. The registry is consulted
      before the duplicate check; handler and config are taken as sent. */
  function AddTool(agents: seq<Agent>, id: string, entry: ToolEntry): (r: Step<ToolEntry>)
    ensures NoAgent(agents, id) ==> r == Step(Response(404, ErrorBody("Agent not found")), agents)
    ensures !NoAgent(agents, id) ==>
      var i := FindAgent(agents, id).value;
      var tools := agents[i].config.tools;
      && (!IsRegistered(entry.key) ==> r == Step(Response(400, ErrorBody("Unknown tool key")), agents))
      && (IsRegistered(entry.key) && HasKey(tools, entry.key) ==>
            r == Step(Response(409, ErrorBody("Tool already added")), agents))
      && (IsRegistered(entry.key) && !HasKey(tools, entry.key) ==>
            r.response == Response(201, Body(entry)) && r.agents == WithTools(agents, i, tools + [entry]))
  {
    match FindAgent(agents, id)
    case None => Step(Response(404, ErrorBody("Agent not found")), agents)
    case Some(i) =>
      var tools := agents[i].config.tools;
      if FindMetadata(entry.key).None? then
        Step(Response(400, ErrorBody("Unknown tool key")), agents)
      else if FindToolIndex(tools, entry.key).Some? then
        Step(Response(409, ErrorBody("Tool already added")), agents)
      else
        Step(Response(201, Body(entry)), WithTools(agents, i, tools + [entry]))
  }

  /** DELETE /agents/:id/tools/:toolKey: splices out the first entry with the key. */
  function RemoveTool(agents: seq<Agent>, id: string, key: string): (r: Step<ToolEntry>)
    ensures NoAgent(agents, id) ==> r == Step(Response(404, ErrorBody("Agent not found")), agents)
    ensures !NoAgent(agents, id) ==>
      var i := FindAgent(agents, id).value;
      var tools := agents[i].config.tools;
      && (!HasKey(tools, key) ==> r == Step(Response(404, ErrorBody("Tool not found")), agents))
      && (HasKey(tools, key) ==>
            exists k :: 0 <= k < |tools| && tools[k].key == key
              && (forall j :: 0 <= j < k ==> tools[j].key != key)
              && r.response == Response(200, Body(tools[k]))
              && r.agents == WithTools(agents, i, tools[..k] + tools[k + 1..]))
  {
    match FindAgent(agents, id)
    case None => Step(Response(404, ErrorBody("Agent not found")), agents)
    case Some(i) =>
      var tools := agents[i].config.tools;
      match FindToolIndex(tools, key)
      case None => Step(Response(404, ErrorBody("Tool not found")), agents)
      case Some(k) => Step(Response(200, Body(tools[k])), WithTools(agents, i, tools[..k] + tools[k + 1..]))
  }

  /** An unknown key is refused with 400 even when the agent already holds an
      entry with that key: the registry check runs first, so 409 never
      reports an unregistered key. */
  lemma UnknownKeyWinsOverDuplicate(agents: seq<Agent>, id: string, entry: ToolEntry)
    requires !NoAgent(agents, id)
    requires !IsRegistered(entry.key)
    ensures AddTool(agents, id, entry).response.status == 400
    ensures AddTool(agents, id, entry).agents == agents
  {
  }

  /** `groqChat` and `http` are handled by the dispatcher but can never be
      attached under those keys. */
  lemma DispatcherOnlyKeysRefused(agents: seq<Agent>, id: string, entry: ToolEntry)
    requires !NoAgent(agents, id)
    requires entry.key == "groqChat" || entry.key == "http"
    ensures AddTool(agents, id, entry).response == Response(400, ErrorBody("Unknown tool key"))
  {
    RegisteredKeys(entry.key);
  }

  /** Attaching keeps every agent's keys distinct. */
  lemma AddToolKeepsKeysUnique(agents: seq<Agent>, id: string, entry: ToolEntry)
    requires AllKeysUnique(agents)
    ensures AllKeysUnique(AddTool(agents, id, entry).agents)
  {
    var r := AddTool(agents, id, entry);
    if r.response.status == 201 {
      var i := FindAgent(agents, id).value;
      var tools := agents[i].config.tools;
      var t := tools + [entry];
      assert !HasKey(tools, entry.key);
      assert UniqueKeys(t) by {
        forall a, b | 0 <= a < b < |t| ensures t[a].key != t[b].key {
          if b == |tools| {
            assert t[a] == tools[a];
          }
        }
      }
    }
  }

  /** Detaching keeps every agent's keys distinct, and with distinct keys the
      detached key is gone afterwards. */
  lemma RemoveToolKeepsKeysUnique(agents: seq<Agent>, id: string, key: string)
    requires AllKeysUnique(agents)
    ensures AllKeysUnique(RemoveTool(agents, id, key).agents)
    ensures !NoAgent(agents, id) ==>
      var i := FindAgent(agents, id).value;
      !HasKey(RemoveTool(agents, id, key).agents[i].config.tools, key)
  {
    var r := RemoveTool(agents, id, key);
    if !NoAgent(agents, id) {
      var i := FindAgent(agents, id).value;
      var tools := agents[i].config.tools;
      if HasKey(tools, key) {
        var k := FindToolIndex(tools, key).value;
        var t := tools[..k] + tools[k + 1..];
        assert forall a :: 0 <= a < |t| ==> t[a] == (if a < k then tools[a] else tools[a + 1]);
        assert UniqueKeys(t);
        assert r.agents[i].config.tools == t;
        assert !HasKey(t, key);
      }
    }
  }

  /** Attaching a tool and then detaching it by its key restores the list and
      hands back the attached entry. */
  lemma AddThenRemove(agents: seq<Agent>, id: string, entry: ToolEntry)
    requires AddTool(agents, id, entry).response.status == 201
    ensures
      var added := AddTool(agents, id, entry).agents;
      RemoveTool(added, id, entry.key) == Step(Response(200, Body(entry)), agents)
  {
    var i := FindAgent(agents, id).value;
    var tools := agents[i].config.tools;
    var added := AddTool(agents, id, entry).agents;
    var t := tools + [entry];
    assert FindAgent(added, id) == Some(i);
    assert !HasKey(tools, entry.key);
    assert t[|tools|].key == entry.key;
    assert FindToolIndex(t, entry.key) == Some(|tools|);
    assert t[..|tools|] + t[|tools| + 1..] == tools;
    assert WithTools(added, i, tools) == agents;
  }
}

=== FILE: agents.dfy ===
/** Agent CRUD (`controllers/agents.ts`). `createAgent` writes to both the
    database and the in-memory list; get, update and delete use only the
    database, whose `agent` and `chatLog` tables are maps keyed by id. */
module Agents {
  import opened Base
  import opened JsValues
  import opened Io
  import opened AgentModel

  /** A row of the `agent` table; `tools` is the stored `config.tools`. */
  datatype DbAgent = DbAgent(id: string, name: Value, description: Value, tools: seq<ToolEntry>)

  /** A row of the `chatLog` table. */
  datatype ChatLog = ChatLog(agentId: string, role: string, message: string, ts: int)

  datatype Db = Db(agents: map<string, DbAgent>, chatLogs: map<string, ChatLog>)

  /** Both agent stores. They are never reconciled with each other. */
  datatype Store = Store(memory: seq<Agent>, db: Db)

  /** The `config` object of a request body: its `tools` field when present
      and not null, and its other fields. */
  datatype ConfigBody = ConfigBody(tools: Option<seq<ToolEntry>>, rest: map<string, Value>)

  /** A create or update request body; `None` config is an absent or null one. */
  datatype AgentBody = AgentBody(name: Value, description: Value, config: Option<ConfigBody>)

  /** The outcome of create: the handler's promise rejects when the database
      write throws. */
  datatype Created = Created(result: Settled<Response<Agent>>, store: Store)

  /** A database handler's response and the database after it. */
  datatype Written = Written(response: Response<DbAgent>, db: Db)

  /** `config.tools ?? []` */
  function ToolsOrEmpty(c: ConfigBody): seq<ToolEntry> {
    match c.tools
    case Some(t) => t
    case None => []
  }

  /** Every stored agent row carries its own key as id. */
  predicate WellKeyed(db: Db) {
    forall k :: k in db.agents ==> db.agents[k].id == k
  }

  /** POST /agents. `memId` and `dbId` are the two uuids the handler draws:
      the first names the in-memory agent that is returned, the second the
      database row. A database key already in use makes the insert throw,
      before anything reaches the in-memory list. */
  function CreateAgent(store: Store, body: AgentBody, memId: string, dbId: string): (r: Created)
    ensures !Truthy(body.name) || body.config.None? ==>
      r == Created(Fulfilled(Response(400, ErrorBody("name and config required"))), store)
    ensures Truthy(body.name) && body.config.Some? && dbId in store.db.agents ==>
      r.result.Rejected? && r.store == store
    ensures Truthy(body.name) && body.config.Some? && dbId !in store.db.agents ==>
      && |r.store.memory| == |store.memory| + 1
      && r.store.memory[..|store.memory|] == store.memory
      && var a := r.store.memory[|store.memory|];
      && a.id == memId && a.name == body.name && a.description == body.description
      && a.config == AgentConfig(ToolsOrEmpty(body.config.value), map[])
      && r.result == Fulfilled(Response(201, Body(a)))
      && r.store.db.chatLogs == store.db.chatLogs
      && r.store.db.agents.Keys == store.db.agents.Keys + {dbId}
      && r.store.db.agents[dbId] == DbAgent(dbId, body.name, body.description, [])
      && (forall k :: k in store.db.agents ==> r.store.db.agents[k] == store.db.agents[k])
  {
    if !Truthy(body.name) || body.config.None? then
      Created(Fulfilled(Response(400, ErrorBody("name and config required"))), store)
    else
      var agent := Agent(memId, body.name, body.description, AgentConfig(ToolsOrEmpty(body.config.value), map[]));
      if dbId in store.db.agents then
        Created(Rejected("Unique constraint failed on the fields: (`id`)"), store)
      else
        var row := DbAgent(dbId, body.name, body.description, []);
        var db := store.db.(agents := store.db.agents[dbId := row]);
        Created(Fulfilled(Response(201, Body(agent))), Store(store.memory + [agent], db))
  }

  /** GET /agents/:id */
  function GetAgent(db: Db, id: string): (r: Response<DbAgent>)
    ensures id in db.agents <==> r.status == 200
    ensures id in db.agents ==> r.payload == Body(db.agents[id])
    ensures id !in db.agents ==> r == Response(404, ErrorBody("Not found"))
  {
    if id in db.agents then Response(200, Body(db.agents[id])) else Response(404, ErrorBody("Not found"))
  }

  /** PUT /agents/:id. Only `config.tools` is written; `name` and
      `description` in the body are read but never stored. An absent config
      fails on `config.tools` inside the try block, hence 500. */
  function UpdateAgent(db: Db, id: string, body: AgentBody): (r: Written)
    ensures id !in db.agents ==> r == Written(Response(404, ErrorBody("Agent not found")), db)
    ensures id in db.agents && body.config.None? ==>
      r == Written(Response(500, ErrorBody("Could not update agent")), db)
    ensures id in db.agents && body.config.Some? ==>
      && r.db.chatLogs == db.chatLogs
      && r.db.agents.Keys == db.agents.Keys
      && r.db.agents[id] == db.agents[id].(tools := ToolsOrEmpty(body.config.value))
      && (forall k :: k in db.agents && k != id ==> r.db.agents[k] == db.agents[k])
      && r.response == Response(200, Body(r.db.agents[id]))
  {
    if id !in db.agents then Written(Response(404, ErrorBody("Agent not found")), db)
    else
      match body.config
      case None => Written(Response(500, ErrorBody("Could not update agent")), db)
      case Some(c) =>
        var updated := db.agents[id].(tools := ToolsOrEmpty(c));
        Written(Response(200, Body(updated)), db.(agents := db.agents[id := updated]))
  }

  /** The chat logs that survive deleting agent `id`. */
  function LogsWithout(logs: map<string, ChatLog>, id: string): (r: map<string, ChatLog>)
    ensures forall k :: k in r ==> r[k].agentId != id
    ensures forall k :: k in logs && logs[k].agentId != id ==> k in r && r[k] == logs[k]
    ensures r.Keys <= logs.Keys
  {
    map k | k in logs && logs[k].agentId != id :: logs[k]
  }

  /** DELETE /agents/:id: the agent's chat logs first, then the agent row. */
  function DeleteAgent(db: Db, id: string): (r: Written)
    ensures id !in db.agents ==> r == Written(Response(404, ErrorBody("Agent not found")), db)
    ensures id in db.agents ==>
      && r.response == Response(200, Body(db.agents[id]))
      && r.db.agents == db.agents - {id}
      && (forall k :: k in r.db.chatLogs ==> r.db.chatLogs[k].agentId != id)
      && (forall k :: k in db.chatLogs && db.chatLogs[k].agentId != id ==>
            k in r.db.chatLogs && r.db.chatLogs[k] == db.chatLogs[k])
      && r.db.chatLogs.Keys <= db.chatLogs.Keys
  {
    if id !in db.agents then Written(Response(404, ErrorBody("Agent not found")), db)
    else
      var logs := LogsWithout(db.chatLogs, id);
      Written(Response(200, Body(db.agents[id])), Db(db.agents - {id}, logs))
  }

  /** The id handed back by create names no database row: a GET with it
      answers 404, and the row that was written has no tools. */
  lemma CreatedIdUnknownToDatabase(store: Store, body: AgentBody, memId: string, dbId: string)
    requires Truthy(body.name) && body.config.Some?
    requires dbId !in store.db.agents
    requires memId != dbId && memId !in store.db.agents
    ensures
      var r := CreateAgent(store, body, memId, dbId);
      && r.result.Fulfilled? && r.result.value.payload.Body?
      && GetAgent(r.store.db, r.result.value.payload.value.id) == Response(404, ErrorBody("Not found"))
      && GetAgent(r.store.db, dbId).payload.value.tools == []
  {
  }

  /** Create preserves well-keyedness of the database. */
  lemma CreateKeepsWellKeyed(store: Store, body: AgentBody, memId: string, dbId: string)
    requires WellKeyed(store.db)
    ensures WellKeyed(CreateAgent(store, body, memId, dbId).store.db)
  {
  }

  /** Update never changes who an agent is: its id, name and description
      stay, whatever the body says. */
  lemma UpdateKeepsIdentity(db: Db, id: string, body: AgentBody)
    requires WellKeyed(db)
    ensures WellKeyed(UpdateAgent(db, id, body).db)
    ensures forall k :: k in db.agents ==>
      && k in UpdateAgent(db, id, body).db.agents
      && UpdateAgent(db, id, body).db.agents[k].name == db.agents[k].name
      && UpdateAgent(db, id, body).db.agents[k].description == db.agents[k].description
  {
  }

  /** Deleting is final: afterwards the agent is not found and has no logs,
      and deleting it again answers 404 without changes. */
  lemma DeleteIsFinal(db: Db, id: string)
    requires id in db.agents
    ensures
      var after := DeleteAgent(db, id).db;
      && GetAgent(after, id).status == 404
      && (forall k :: k in after.chatLogs ==> after.chatLogs[k].agentId != id)
      && DeleteAgent(after, id) == Written(Response(404, ErrorBody("Agent not found")), after)
  {
  }
}

=== FILE: base.dfy ===
/** Small failure-carrying datatypes shared by every module of the model. */
module Base {

  /** A value that may be missing, as `undefined` is in the original code. */
  datatype Option<+T> = None | Some(value: T)

  /** The settled state of a promise: fulfilled with a value, or rejected
      with the message of the error that was thrown. */
  datatype Settled<+T> = Fulfilled(value: T) | Rejected(message: string)

  /** Index of the first element of `s` satisfying `p` (`Array.prototype.find`
      and `findIndex`), or None when no element does. */
  function FirstIndex<T>(s: seq<T>, p: T -> bool): (r: Option<nat>)
    ensures r.None? <==> forall j :: 0 <= j < |s| ==> !p(s[j])
    ensures r.Some? ==> r.value < |s| && p(s[r.value])
    ensures r.Some? ==> forall j :: 0 <= j < r.value ==> !p(s[j])
  {
    if |s| == 0 then None
    else if p(s[0]) then Some(0)
    else
      match FirstIndex(s[1..], p)
      case None => None
      case Some(i) => Some(i + 1)
  }
}

=== FILE: chat.dfy ===
/** `chatAgent` (`controllers/chat.ts`): validate, build a two-message prompt,
    relay it to the LLM. It reads the in-memory agent list and writes nothing. */
module Chat {
  import opened Base
  import opened JsValues
  import opened Io
  import opened AgentModel

  datatype ChatReply = ChatReply(reply: string)

  /** The response sent and the outbound requests made. */
  datatype Exchange<+T> = Exchange(response: Response<T>, calls: seq<Call>)

  const NotFound: Response<ChatReply> := Response(404, ErrorBody("Agent not found"))
  const MissingCredentials: Response<ChatReply> := Response(500, ErrorBody("Agent config must include apiKey and model"))
  const MissingMessage: Response<ChatReply> := Response(400, ErrorBody("Missing `message` in request body"))
  const LlmFailed: Response<ChatReply> := Response(502, ErrorBody("LLM call failed"))

  /** The prompt: the agent's description as system message unless it is
      null or undefined, "You are <name>." otherwise; then the user's message. */
  function ChatMessages(agent: Agent, message: Value): (msgs: seq<ChatMessage>)
    ensures |msgs| == 2 && msgs[0].role == System && msgs[1] == ChatMessage(User, message)
    ensures !Nullish(agent.description) ==> msgs[0].content == agent.description
    ensures Nullish(agent.description) ==> msgs[0].content == Str("You are " + ToText(agent.name) + ".")
  {
    [ ChatMessage(System, Coalesce(agent.description, Str("You are " + ToText(agent.name) + "."))),
      ChatMessage(User, message) ]
  }

  /** The credentials the chat handler needs, read from the agent's config. */
  predicate HasCredentials(agent: Agent) {
    Truthy(Get(agent.config.extra, "apiKey")) && Truthy(Get(agent.config.extra, "model"))
  }

  /** POST /agents/:id/chat with body `{ message }`. */
  function ChatAgent(agents: seq<Agent>, id: string, message: Value, world: World): (r: Exchange<ChatReply>)
    ensures NoAgent(agents, id) ==> r == Exchange(NotFound, [])
    ensures !NoAgent(agents, id) ==>
      var agent := agents[FindAgent(agents, id).value];
      var apiKey, model := Get(agent.config.extra, "apiKey"), Get(agent.config.extra, "model");
      && (!HasCredentials(agent) ==> r == Exchange(MissingCredentials, []))
      && (HasCredentials(agent) && !Truthy(message) ==> r == Exchange(MissingMessage, []))
      && (HasCredentials(agent) && Truthy(message) ==>
            && r.calls == [LlmCall(apiKey, model, ChatMessages(agent, message))]
            && (world.chatCompletion(apiKey, model, ChatMessages(agent, message)).Fulfilled? ==>
                  r.response == Response(200, Body(ChatReply(
                    world.chatCompletion(apiKey, model, ChatMessages(agent, message)).value))))
            && (world.chatCompletion(apiKey, model, ChatMessages(agent, message)).Rejected? ==>
                  r.response == LlmFailed))
  {
    match FindAgent(agents, id)
    case None => Exchange(NotFound, [])
    case Some(i) =>
      var agent := agents[i];
      var apiKey, model := Get(agent.config.extra, "apiKey"), Get(agent.config.extra, "model");
      if !Truthy(apiKey) || !Truthy(model) then Exchange(MissingCredentials, [])
      else if !Truthy(message) then Exchange(MissingMessage, [])
      else
        var msgs := ChatMessages(agent, message);
        var call := LlmCall(apiKey, model, msgs);
        match world.chatCompletion(apiKey, model, msgs)
        case Fulfilled(text) => Exchange(Response(200, Body(ChatReply(text))), [call])
        case Rejected(_) => Exchange(LlmFailed, [call])
  }

  /** A 200 answer needs an agent with both credentials and a truthy message,
      costs exactly one LLM call, and carries the LLM's text verbatim. */
  lemma ReplyRequiresEverything(agents: seq<Agent>, id: string, message: Value, world: World)
    requires ChatAgent(agents, id, message, world).response.status == 200
    ensures !NoAgent(agents, id)
    ensures HasCredentials(agents[FindAgent(agents, id).value]) && Truthy(message)
    ensures LlmCalls(ChatAgent(agents, id, message, world).calls) == 1
    ensures
      var agent := agents[FindAgent(agents, id).value];
      var apiKey, model := Get(agent.config.extra, "apiKey"), Get(agent.config.extra, "model");
      ChatAgent(agents, id, message, world).response.payload
        == Body(ChatReply(world.chatCompletion(apiKey, model, ChatMessages(agent, message)).value))
  {
  }

  /** Agents whose config carries nothing but tools, as every created agent's
      does, never get past the credentials check. */
  lemma BareAgentsNeverReply(agents: seq<Agent>, id: string, message: Value, world: World)
    requires forall j :: 0 <= j < |agents| ==> agents[j].config.extra == map[]
    ensures ChatAgent(agents, id, message, world).response in {NotFound, MissingCredentials}
    ensures ChatAgent(agents, id, message, world).calls == []
  {
  }
}

=== FILE: github_summarizer.dfy ===
/** `summarizePr` (`services/githubSummarizer.ts`): resolve a pull request
    number, fetch the pull request, and have the LLM summarise it. The GitHub
    token and the LLM key and model come from the process environment; only
    `owner` and `repo` are read from the tool's config. */
module GithubSummarizer {
  import opened Base
  import opened JsValues
  import opened Strings
  import opened Io

  function Owner(cfg: map<string, Value>): string {
    ToText(Get(cfg, "owner"))
  }

  function Repo(cfg: map<string, Value>): string {
    ToText(Get(cfg, "repo"))
  }

  /** `${cfg.owner}/${cfg.repo}` */
  function RepoName(cfg: map<string, Value>): string {
    Owner(cfg) + "/" + Repo(cfg)
  }

  function PullsUrl(cfg: map<string, Value>): string {
    "https://api.github.com/repos/" + Owner(cfg) + "/" + Repo(cfg) + "/pulls"
  }

  function PullUrl(cfg: map<string, Value>, n: Value): string {
    PullsUrl(cfg) + "/" + ToText(n)
  }

  function Authorization(env: Env): string {
    "Bearer " + ToText(env.githubToken)
  }

  function NoPullsSentence(cfg: map<string, Value>): string {
    "No pull requests found in " + RepoName(cfg)
  }

  function MissingPullSentence(cfg: map<string, Value>, n: Value): string {
    "Pull request #" + ToText(n) + " does not exist in " + RepoName(cfg)
  }

  /** The number `-1` that stands for "no pull request". */
  const NoPull := Num(-1)

  /** `getLatestPrNumber`: the first listed pull request's number, or -1. */
  function LatestPrNumber(cfg: map<string, Value>, env: Env, world: World): (r: Run<Value>)
    ensures r.calls == [GitHubGet(PullsUrl(cfg), Authorization(env))]
    ensures world.listPulls(PullsUrl(cfg)).Rejected? ==>
      r.result == Rejected(world.listPulls(PullsUrl(cfg)).message)
    ensures world.listPulls(PullsUrl(cfg)).Fulfilled? ==>
      var prs := world.listPulls(PullsUrl(cfg)).value;
      && (|prs| == 0 ==> r.result == Fulfilled(NoPull))
      && (|prs| > 0 ==> r.result == Fulfilled(prs[0]))
  {
    var call := GitHubGet(PullsUrl(cfg), Authorization(env));
    match world.listPulls(PullsUrl(cfg))
    case Rejected(m) => Run(Rejected(m), [call])
    case Fulfilled(prs) => Run(Fulfilled(if |prs| == 0 then NoPull else prs[0]), [call])
  }

  /** The lines of the user message up to and including "URL: ". */
  function PromptHead(n: Value, title: Value, body: Value): string {
    "Summarize this PR (#" + ToText(n) + "):\n\nTitle: " + ToText(title)
    + "\n\nDescription:\n" + ToText(Or(body, Str("(no description)"))) + "\n\nURL: "
  }

  /** The user message before `.trim()`, as the template literal lays it out:
      it opens with a line break and closes with a line break and the
      indentation of the closing backtick. */
  function RawPrompt(n: Value, title: Value, body: Value, url: Value): string {
    PromptLead + PromptHead(n, title, body) + ToText(url) + PromptTail
  }

  const PromptLead := "\n"
  const PromptTail := "\n      "

  /** The template literal's frame is whitespace and its fixed text starts
      with a letter. */
  lemma PromptFrame(n: Value, title: Value, body: Value)
    ensures AllWhitespace(PromptLead) && AllWhitespace(PromptTail)
    ensures PromptHead(n, title, body) != [] && !IsWhitespace(PromptHead(n, title, body)[0])
  {
    assert PromptHead(n, title, body)[0] == 'S';
  }

  /** `.trim()` on the user message removes the opening line break and the
      closing indentation; of the interpolated text, only whitespace at the
      end of the URL is affected. */
  lemma PromptTrim(n: Value, title: Value, body: Value, url: Value)
    ensures Trim(RawPrompt(n, title, body, url)) == TrimEnd(PromptHead(n, title, body) + ToText(url))
  {
    PromptFrame(n, title, body);
    TrimFramedEnd(PromptLead, PromptHead(n, title, body), ToText(url), PromptTail);
  }

  /** The two-message prompt for one pull request: the system message names
      the repository, and the user message is the fixed lines with the pull
      request's number, title, body (or a placeholder) and URL, trimmed. */
  function PrMessages(cfg: map<string, Value>, n: Value, pr: PullResponse): (m: seq<ChatMessage>)
    ensures |m| == 2 && m[0].role == System && m[1].role == User
    ensures m[1].content == Str(TrimEnd(PromptHead(n, pr.title, pr.body) + ToText(pr.htmlUrl)))
  {
    PromptTrim(n, pr.title, pr.body, pr.htmlUrl);
    [ ChatMessage(System, Str("You are a PR summarization assistant for " + RepoName(cfg) + ".")),
      ChatMessage(User, Str(Trim(RawPrompt(n, pr.title, pr.body, pr.htmlUrl)))) ]
  }

  /** Everything after the number is resolved. */
  function SummarizeNumber(cfg: map<string, Value>, n: Value, env: Env, world: World): (r: Run<string>)
    ensures LlmCalls(r.calls) <= 1 && |r.calls| <= 2
    ensures n == NoPull ==> r == Run(Fulfilled(NoPullsSentence(cfg)), [])
    ensures n != NoPull ==> |r.calls| >= 1 && r.calls[0] == GitHubGet(PullUrl(cfg, n), Authorization(env))
    ensures n != NoPull && world.getPull(PullUrl(cfg, n)).Rejected? ==>
      r == Run(Rejected(world.getPull(PullUrl(cfg, n)).message), [GitHubGet(PullUrl(cfg, n), Authorization(env))])
    ensures n != NoPull && world.getPull(PullUrl(cfg, n)).Fulfilled? ==>
      var pr := world.getPull(PullUrl(cfg, n)).value;
      && (pr.status.code == 404 ==>
            r == Run(Fulfilled(MissingPullSentence(cfg, n)), [GitHubGet(PullUrl(cfg, n), Authorization(env))]))
      && (pr.status.code != 404 && !IsOk(pr.status) ==>
            r == Run(Rejected("GitHub API error: " + IntText(pr.status.code) + " " + pr.status.text),
                     [GitHubGet(PullUrl(cfg, n), Authorization(env))]))
      && (IsOk(pr.status) ==>
            var msgs := PrMessages(cfg, n, pr);
            r == Run(world.chatCompletion(env.groqApiKey, env.groqModel, msgs),
                     [GitHubGet(PullUrl(cfg, n), Authorization(env)), LlmCall(env.groqApiKey, env.groqModel, msgs)]))
  {
    if n == NoPull then Run(Fulfilled(NoPullsSentence(cfg)), [])
    else
      var get := GitHubGet(PullUrl(cfg, n), Authorization(env));
      match world.getPull(PullUrl(cfg, n))
      case Rejected(m) => Run(Rejected(m), [get])
      case Fulfilled(pr) =>
        if pr.status.code == 404 then Run(Fulfilled(MissingPullSentence(cfg, n)), [get])
        else if !IsOk(pr.status) then
          Run(Rejected("GitHub API error: " + IntText(pr.status.code) + " " + pr.status.text), [get])
        else
          var msgs := PrMessages(cfg, n, pr);
          Run(world.chatCompletion(env.groqApiKey, env.groqModel, msgs),
              [get, LlmCall(env.groqApiKey, env.groqModel, msgs)])
  }

  /** `summarizePr(cfg, prNumber)`: the string "latest" is first resolved
      through the pull list; every other value is used as given. */
  function SummarizePr(cfg: map<string, Value>, prNumber: Value, env: Env, world: World): (r: Run<string>)
    ensures LlmCalls(r.calls) <= 1
    ensures prNumber != Str("latest") ==> |r.calls| <= 2
    ensures prNumber != Str("latest") ==> r == SummarizeNumber(cfg, prNumber, env, world)
    ensures prNumber == Str("latest") && LatestPrNumber(cfg, env, world).result.Rejected? ==>
      r == Run(Rejected(LatestPrNumber(cfg, env, world).result.message), LatestPrNumber(cfg, env, world).calls)
  {
    if prNumber == Str("latest") then
      var latest := LatestPrNumber(cfg, env, world);
      match latest.result
      case Rejected(m) => Run(Rejected(m), latest.calls)
      case Fulfilled(n) =>
        var rest := SummarizeNumber(cfg, n, env, world);
        assert LlmCalls(latest.calls) == 0;
        LlmCallsConcat(latest.calls, rest.calls);
        Run(rest.result, latest.calls + rest.calls)
    else SummarizeNumber(cfg, prNumber, env, world)
  }

  /** "latest" on a repository without pull requests: the fixed sentence, after
      the one list request and nothing else. */
  lemma LatestOnEmptyRepository(cfg: map<string, Value>, env: Env, world: World)
    requires world.listPulls(PullsUrl(cfg)) == Fulfilled([])
    ensures SummarizePr(cfg, Str("latest"), env, world)
         == Run(Fulfilled(NoPullsSentence(cfg)), [GitHubGet(PullsUrl(cfg), Authorization(env))])
  {
    assert [GitHubGet(PullsUrl(cfg), Authorization(env))] + [] == [GitHubGet(PullsUrl(cfg), Authorization(env))];
  }

  /** "latest" means the first listed pull request: the run is the list
      request followed by the run for that number. */
  lemma LatestIsFirstListed(cfg: map<string, Value>, env: Env, world: World)
    requires world.listPulls(PullsUrl(cfg)).Fulfilled?
    requires |world.listPulls(PullsUrl(cfg)).value| > 0
    requires world.listPulls(PullsUrl(cfg)).value[0] != Str("latest")
    ensures
      var first := world.listPulls(PullsUrl(cfg)).value[0];
      var direct := SummarizePr(cfg, first, env, world);
      SummarizePr(cfg, Str("latest"), env, world)
        == Run(direct.result, [GitHubGet(PullsUrl(cfg), Authorization(env))] + direct.calls)
  {
  }

  /** An explicit -1 gives the "no pull requests" sentence without any request. */
  lemma ExplicitNoPull(cfg: map<string, Value>, env: Env, world: World)
    ensures SummarizePr(cfg, Num(-1), env, world) == Run(Fulfilled(NoPullsSentence(cfg)), [])
  {
  }

  /** A 404 for the pull request is answered with a sentence, not an error,
      and the LLM is not asked. */
  lemma MissingPullWithoutLlm(cfg: map<string, Value>, n: Value, env: Env, world: World)
    requires n != Str("latest") && n != NoPull
    requires world.getPull(PullUrl(cfg, n)).Fulfilled?
    requires world.getPull(PullUrl(cfg, n)).value.status.code == 404
    ensures SummarizePr(cfg, n, env, world).result == Fulfilled(MissingPullSentence(cfg, n))
    ensures LlmCalls(SummarizePr(cfg, n, env, world).calls) == 0
  {
  }

  /** A pull request fetch answered with an error status other than 404
      rejects with the GitHub API error, without asking the LLM. */
  lemma ApiErrorRejects(cfg: map<string, Value>, n: Value, env: Env, world: World)
    requires n != Str("latest") && n != NoPull
    requires world.getPull(PullUrl(cfg, n)).Fulfilled?
    requires
      var st := world.getPull(PullUrl(cfg, n)).value.status;
      st.code != 404 && !IsOk(st)
    ensures
      var st := world.getPull(PullUrl(cfg, n)).value.status;
      SummarizePr(cfg, n, env, world).result
        == Rejected("GitHub API error: " + IntText(st.code) + " " + st.text)
    ensures LlmCalls(SummarizePr(cfg, n, env, world).calls) == 0
  {
  }

  /** Every fulfilled answer that did not come from the LLM is one of the two
      fixed sentences. */
  lemma AnswersWithoutLlm(cfg: map<string, Value>, n: Value, env: Env, world: World)
    requires n != Str("latest")
    requires LlmCalls(SummarizePr(cfg, n, env, world).calls) == 0
    requires SummarizePr(cfg, n, env, world).result.Fulfilled?
    ensures SummarizePr(cfg, n, env, world).result.value
            in {NoPullsSentence(cfg), MissingPullSentence(cfg, n)}
  {
  }

  /** Every rejection without an LLM call is the failed fetch's own error or
      the GitHub API error for the status the fetch returned. */
  lemma RejectionsWithoutLlm(cfg: map<string, Value>, n: Value, env: Env, world: World)
    requires n != Str("latest")
    requires LlmCalls(SummarizePr(cfg, n, env, world).calls) == 0
    requires SummarizePr(cfg, n, env, world).result.Rejected?
    ensures n != NoPull
    ensures world.getPull(PullUrl(cfg, n)).Rejected? ==>
      SummarizePr(cfg, n, env, world).result.message == world.getPull(PullUrl(cfg, n)).message
    ensures world.getPull(PullUrl(cfg, n)).Fulfilled? ==>
      var st := world.getPull(PullUrl(cfg, n)).value.status;
      && st.code != 404 && !IsOk(st)
      && SummarizePr(cfg, n, env, world).result.message == "GitHub API error: " + IntText(st.code) + " " + st.text
  {
  }

  /** A successful fetch leads to exactly one LLM call, whose answer is the result. */
  lemma SuccessfulFetchAsksLlmOnce(cfg: map<string, Value>, n: Value, env: Env, world: World)
    requires n != Str("latest") && n != NoPull
    requires world.getPull(PullUrl(cfg, n)).Fulfilled?
    requires IsOk(world.getPull(PullUrl(cfg, n)).value.status)
    ensures
      var pr := world.getPull(PullUrl(cfg, n)).value;
      var r := SummarizePr(cfg, n, env, world);
      && LlmCalls(r.calls) == 1
      && r.result == world.chatCompletion(env.groqApiKey, env.groqModel, PrMessages(cfg, n, pr))
  {
  }

  /** Layout of the user message after `.trim()`: the leading newline and the
      trailing indentation are gone, and so is whitespace at the end of the URL. */
  lemma PromptLayout(n: Value, title: Value, body: Value, url: Value)
    requires TrimEnd(ToText(url)) != []
    ensures Trim(RawPrompt(n, title, body, url)) == PromptHead(n, title, body) + TrimEnd(ToText(url))
  {
    PromptFrame(n, title, body);
    TrimFramed(PromptLead, PromptHead(n, title, body), ToText(url), PromptTail);
  }

  /** The 404 case with concrete values: pull request 42 of acme/widgets. */
  lemma MissingPullExample(env: Env, world: World)
    requires
      var cfg := map["owner" := Str("acme"), "repo" := Str("widgets")];
      world.getPull(PullUrl(cfg, Num(42))) == Fulfilled(PullResponse(HttpStatus(404, "Not Found"), Null, Null, Null))
    ensures
      var cfg := map["owner" := Str("acme"), "repo" := Str("widgets")];
      SummarizePr(cfg, Num(42), env, world).result
        == Fulfilled("Pull request #" + "42" + " does not exist in " + "acme/widgets")
  {
    var cfg := map["owner" := Str("acme"), "repo" := Str("widgets")];
    MissingPullWithoutLlm(cfg, Num(42), env, world);
    assert NatText(42) == "42" by {
      assert NatText(4) == "4";
    }
    assert Get(cfg, "owner") == Str("acme");
    assert Get(cfg, "repo") == Str("widgets");
    assert RepoName(cfg) == "acme" + "/" + "widgets" == "acme/widgets";
  }
}

=== FILE: io.dfy ===
/** The boundary of the model: HTTP responses the handlers send, and the
    outbound calls they make. Every outbound call is answered by a field of a
    `World`, so the network, the LLM and the JSON parser are inputs here. */
module Io {
  import opened Base
  import opened JsValues

  /** The JSON body of an HTTP response: a payload, or `{ error: message }`. */
  datatype Payload<+T> = Body(value: T) | ErrorBody(error: string)

  datatype Response<+T> = Response(status: int, payload: Payload<T>)

  datatype Role = System | User | Assistant

  /** A chat message; `content` is whatever value the code put there. */
  datatype ChatMessage = ChatMessage(role: Role, content: Value)

  datatype HttpStatus = HttpStatus(code: int, text: string)

  /** `res.ok` */
  predicate IsOk(s: HttpStatus) {
    200 <= s.code <= 299
  }

  /** A single pull request as fetched from GitHub: the status line and the
      fields of the JSON body the summarizer reads. */
  datatype PullResponse = PullResponse(status: HttpStatus, title: Value, body: Value, htmlUrl: Value)

  /** The text a tool returns: a plain string, or `JSON.stringify(v, null, indent)`.
      The serialisation itself is kept symbolic. */
  datatype Text = Plain(s: string) | JsonText(v: Value, indent: nat)

  /** One outbound request, as recorded in a run's trace. */
  datatype Call =
    | LlmCall(apiKey: Value, model: Value, messages: seq<ChatMessage>)
    | GitHubGet(url: string, authorization: string)
    | WebhookPost(webhookUrl: Value, payload: Value)
    | HttpRequest(target: Value, verb: Value, headers: Value, body: Value)

  /** How the outside world answers each kind of request.
      - chatCompletion: the LLM client; rejects on network/auth failures.
      - listPulls: GET of a repository's pull list, as the `number` field of
        each listed pull, in listed order.
      - getPull: GET of one pull request.
      - postWebhook: the Slack webhook POST (axios), as the response status.
      - request: a configured HTTP request (axios), as the response data.
      - parseJson: `JSON.parse`, which throws on malformed text. */
  datatype World = World(
    chatCompletion: (Value, Value, seq<ChatMessage>) -> Settled<string>,
    listPulls: string -> Settled<seq<Value>>,
    getPull: string -> Settled<PullResponse>,
    postWebhook: (Value, Value) -> Settled<HttpStatus>,
    request: (Value, Value, Value, Value) -> Settled<Value>,
    parseJson: string -> Settled<Value>)

  /** The process environment the GitHub summarizer reads at load time. */
  datatype Env = Env(groqApiKey: Value, groqModel: Value, githubToken: Value)

  /** An asynchronous operation's outcome and the requests it made, in order. */
  datatype Run<+T> = Run(result: Settled<T>, calls: seq<Call>)

  /** Number of LLM requests in a trace. */
  function LlmCalls(calls: seq<Call>): (n: nat)
    ensures n <= |calls|
    ensures n == 0 <==> forall i :: 0 <= i < |calls| ==> !calls[i].LlmCall?
  {
    if |calls| == 0 then 0
    else (if calls[0].LlmCall? then 1 else 0) + LlmCalls(calls[1..])
  }

  lemma {:induction false} LlmCallsConcat(a: seq<Call>, b: seq<Call>)
    ensures LlmCalls(a + b) == LlmCalls(a) + LlmCalls(b)
  {
    if |a| > 0 {
      assert (a + b)[1..] == a[1..] + b;
      LlmCallsConcat(a[1..], b);
    } else {
      assert a + b == b;
    }
  }
}

=== FILE: js_values.dfy ===
/** The dynamically typed values that flow through request bodies, tool
    configurations and tool arguments (`Record<string, any>`), with the few
    JavaScript operators the handlers apply to them. */
module JsValues {

  /** A JSON-like JavaScript value. Numbers are integers here. */
  datatype Value =
    | Undefined
    | Null
    | Bool(b: bool)
    | Num(n: int)
    | Str(s: string)
    | Arr(items: seq<Value>)
    | Obj(fields: map<string, Value>)

  /** JavaScript truthiness: `undefined`, `null`, `false`, `0` and `""` are falsy. */
  predicate Truthy(v: Value) {
    match v
    case Undefined => false
    case Null => false
    case Bool(b) => b
    case Num(n) => n != 0
    case Str(s) => s != ""
    case Arr(_) => true
    case Obj(_) => true
  }

  /** The values the nullish-coalescing operator `??` replaces. */
  predicate Nullish(v: Value) {
    v.Undefined? || v.Null?
  }

  /** Property read `m[k]` on a plain record: a missing key reads as `undefined`. */
  function Get(m: map<string, Value>, k: string): Value {
    if k in m then m[k] else Undefined
  }

  /** The fields a property read `v.k` can find on a value that is not
      nullish: an object's own fields. Primitives and arrays have none under
      the non-index names the handlers read. */
  function OwnFields(v: Value): (m: map<string, Value>)
    ensures v.Obj? ==> m == v.fields
    ensures !v.Obj? ==> m == map[]
  {
    if v.Obj? then v.fields else map[]
  }

  /** `v || d` */
  function Or(v: Value, d: Value): (r: Value)
    ensures Truthy(v) ==> r == v
    ensures !Truthy(v) ==> r == d
  {
    if Truthy(v) then v else d
  }

  /** `v ?? d` */
  function Coalesce(v: Value, d: Value): (r: Value)
    ensures Nullish(v) ==> r == d
    ensures !Nullish(v) ==> r == v
  {
    if Nullish(v) then d else v
  }

  function DigitChar(d: nat): (c: char)
    requires d < 10
    ensures '0' <= c <= '9'
  {
    "0123456789"[d]
  }

  /** Decimal notation of a natural number, without leading zeros. */
  function NatText(n: nat): (s: string)
    ensures |s| >= 1
    ensures forall i :: 0 <= i < |s| ==> '0' <= s[i] <= '9'
    ensures s[0] == '0' ==> n == 0
    ensures n < 10 <==> |s| == 1
  {
    if n < 10 then [DigitChar(n)] else NatText(n / 10) + [DigitChar(n % 10)]
  }

  /** Decimal notation of an integer, with a leading '-' when negative. */
  function IntText(i: int): string {
    if i < 0 then "-" + NatText(-i) else NatText(i)
  }

  /** `String(v)`, the conversion template literals and `String.prototype.replace`
      apply to a value. */
  function ToText(v: Value): string
    decreases v, 1
  {
    match v
    case Undefined => "undefined"
    case Null => "null"
    case Bool(b) => if b then "true" else "false"
    case Num(n) => IntText(n)
    case Str(s) => s
    case Arr(_) => JoinFrom(v, 0)
    case Obj(_) => "[object Object]"
  }

  /** `Array.prototype.join(",")` over the elements of `v` from index `i` on;
      `null` and `undefined` elements contribute the empty string. */
  function JoinFrom(v: Value, i: nat): string
    requires v.Arr?
    decreases v, 0, |v.items| - i
  {
    if i >= |v.items| then ""
    else
      var e := v.items[i];
      (if i > 0 then "," else "") + (if Nullish(e) then "" else ToText(e)) + JoinFrom(v, i + 1)
  }
}

=== FILE: registry.dfy ===
/** The static table of tools an agent may attach (`availableTools`). */
module Registry {
  import opened Base

  /** A declarative config schema: an object whose listed properties are all
      typed "string", some of them required. It is metadata only: nothing in
      the system checks a tool's config against it. */
  datatype ConfigSchema = ObjectSchema(properties: seq<string>, required: seq<string>)

  datatype ToolMetadata = ToolMetadata(
    key: string,
    name: string,
    description: string,
    configSchema: ConfigSchema)

  const GithubSummarizerKey := "githubSummarizer"
  const SlackNotifierKey := "slackNotifier"

  const AvailableTools: seq<ToolMetadata> := [
    ToolMetadata(
      GithubSummarizerKey,
      "GitHub PR Summarizer",
      "Fetch and summarize a GitHub Pull Request.",
      ObjectSchema(
        ["owner", "repo", "token", "apiKey", "model"],
        ["owner", "repo", "token", "apiKey", "model"])),
    ToolMetadata(
      SlackNotifierKey,
      "Slack Notifier",
      "Post a message to a Slack channel.",
      ObjectSchema(["webhookUrl", "channel"], ["webhookUrl", "channel"]))
  ]

  /** `availableTools.find(t => t.key === key)` */
  function FindMetadata(key: string): (r: Option<ToolMetadata>)
    ensures r.Some? ==> r.value in AvailableTools && r.value.key == key
    ensures r.None? <==> forall t :: t in AvailableTools ==> t.key != key
  {
    match FirstIndex(AvailableTools, (t: ToolMetadata) => t.key == key)
    case None => None
    case Some(i) => Some(AvailableTools[i])
  }

  predicate IsRegistered(key: string) {
    FindMetadata(key).Some?
  }

  /** The registry holds exactly two tools, under two distinct keys. */
  lemma RegistryContents()
    ensures |AvailableTools| == 2
    ensures AvailableTools[0].key == "githubSummarizer"
    ensures AvailableTools[1].key == "slackNotifier"
    ensures AvailableTools[0].key != AvailableTools[1].key
  {
  }

  /** A key is registered exactly when it is one of the two table keys; in
      particular the dispatcher's `groqChat` and `http` handlers are not keys. */
  lemma RegisteredKeys(key: string)
    ensures IsRegistered(key) <==> key == "githubSummarizer" || key == "slackNotifier"
    ensures !IsRegistered("groqChat") && !IsRegistered("http")
  {
    assert AvailableTools[0] in AvailableTools;
    assert AvailableTools[1] in AvailableTools;
  }

  /** The config fields each registered tool declares as required. */
  lemma RequiredConfigFields()
    ensures FindMetadata("githubSummarizer").Some?
    ensures FindMetadata("githubSummarizer").value.configSchema.required
         == ["owner", "repo", "token", "apiKey", "model"]
    ensures FindMetadata("slackNotifier").Some?
    ensures FindMetadata("slackNotifier").value.configSchema.required == ["webhookUrl", "channel"]
  {
    assert AvailableTools[0] in AvailableTools;
    assert AvailableTools[1] in AvailableTools;
  }
}

=== FILE: slack_client.dfy ===
/** `postToSlack` (`services/slackClient.ts`): POST `{ text }` to a webhook and
    report the outcome as a JSON-serialised `SlackResponse`. */
module SlackClient {
  import opened Base
  import opened JsValues
  import opened Io

  datatype SlackStatus = Success | Error

  datatype SlackResponse = SlackResponse(status: SlackStatus, message: string, text: Value)

  const SentMessage := "Your message has been sent to Slack!"

  function StatusName(s: SlackStatus): string {
    match s
    case Success => "success"
    case Error => "error"
  }

  /** The record built from the status the webhook answered with. */
  function BuildResponse(st: HttpStatus, text: Value): (r: SlackResponse)
    ensures r.text == text
    ensures r.status == Success <==> st.code == 200
    ensures r.status == Success ==> r.message == SentMessage
    ensures r.status == Error ==> r.message == "Slack webhook failed: " + IntText(st.code) + " " + st.text
  {
    if st.code == 200 then SlackResponse(Success, SentMessage, text)
    else SlackResponse(Error, "Slack webhook failed: " + IntText(st.code) + " " + st.text, text)
  }

  /** The record as the object `JSON.stringify` serialises. */
  function AsJson(r: SlackResponse): Value {
    Obj(map["status" := Str(StatusName(r.status)), "text" := r.text, "message" := Str(r.message)])
  }

  /** The request body `{ text }`. */
  function Payload(text: Value): Value {
    Obj(map["text" := text])
  }

  /** `postToSlack(webhookUrl, text)`: one POST; a rejected POST is rethrown
      unchanged, any answered status becomes a serialised record. */
  function PostToSlack(webhookUrl: Value, text: Value, world: World): (r: Run<Text>)
    ensures r.calls == [WebhookPost(webhookUrl, Payload(text))]
    ensures world.postWebhook(webhookUrl, Payload(text)).Rejected? ==>
      r.result == Rejected(world.postWebhook(webhookUrl, Payload(text)).message)
    ensures world.postWebhook(webhookUrl, Payload(text)).Fulfilled? ==>
      var st := world.postWebhook(webhookUrl, Payload(text)).value;
      r.result == Fulfilled(JsonText(AsJson(BuildResponse(st, text)), 0))
  {
    var call := WebhookPost(webhookUrl, Payload(text));
    match world.postWebhook(webhookUrl, Payload(text))
    case Rejected(m) => Run(Rejected(m), [call])
    case Fulfilled(st) => Run(Fulfilled(JsonText(AsJson(BuildResponse(st, text)), 0)), [call])
  }

  /** Reading the serialised record back: it has exactly the three fields,
      `status` is "success" exactly for HTTP 200 and "error" otherwise, and
      `text` is the text that was posted. */
  lemma SerialisedFields(st: HttpStatus, text: Value)
    ensures AsJson(BuildResponse(st, text)).fields.Keys == {"status", "text", "message"}
    ensures Get(AsJson(BuildResponse(st, text)).fields, "status") == Str("success") <==> st.code == 200
    ensures Get(AsJson(BuildResponse(st, text)).fields, "status") == Str("error") <==> st.code != 200
    ensures Get(AsJson(BuildResponse(st, text)).fields, "text") == text
  {
    assert "success" != "error";
  }
}

=== FILE: strings.dfy ===
/** `String.prototype.trim` and the facts about it that the GitHub prompt needs. */
module Strings {

  /** The characters ECMAScript's `trim` removes: WhiteSpace and LineTerminator. */
  predicate IsWhitespace(c: char) {
    || c == ' ' || c == '\t' || c == '\n' || c == '\r'
    || c == '\U{000B}' || c == '\U{000C}' || c == '\U{00A0}' || c == '\U{FEFF}'
    || c == '\U{1680}' || ('\U{2000}' <= c <= '\U{200A}')
    || c == '\U{2028}' || c == '\U{2029}' || c == '\U{202F}' || c == '\U{205F}' || c == '\U{3000}'
  }

  predicate AllWhitespace(s: string) {
    forall i :: 0 <= i < |s| ==> IsWhitespace(s[i])
  }

  /** Length of the longest prefix of `s` that does not end in whitespace. */
  function KeptLength(s: string): (n: nat)
    ensures n <= |s|
    ensures forall i :: n <= i < |s| ==> IsWhitespace(s[i])
    ensures n == 0 || !IsWhitespace(s[n - 1])
  {
    if |s| > 0 && IsWhitespace(s[|s| - 1]) then KeptLength(s[..|s| - 1]) else |s|
  }

  /** Number of leading whitespace characters of `s`. */
  function LeadingLength(s: string): (n: nat)
    ensures n <= |s|
    ensures forall i :: 0 <= i < n ==> IsWhitespace(s[i])
    ensures n == |s| || !IsWhitespace(s[n])
  {
    if |s| > 0 && IsWhitespace(s[0]) then 1 + LeadingLength(s[1..]) else 0
  }

  /** `s.trimEnd()` */
  function TrimEnd(s: string): string {
    s[..KeptLength(s)]
  }

  /** `s.trimStart()` */
  function TrimStart(s: string): string {
    s[LeadingLength(s)..]
  }

  /** `s.trim()` */
  function Trim(s: string): string {
    TrimEnd(TrimStart(s))
  }

  /** KeptLength's contract pins it down: any cut with the same two properties is it. */
  lemma KeptLengthUnique(s: string, n: nat)
    requires n <= |s| && forall i :: n <= i < |s| ==> IsWhitespace(s[i])
    requires n == 0 || !IsWhitespace(s[n - 1])
    ensures KeptLength(s) == n
  {
  }

  lemma LeadingLengthUnique(s: string, n: nat)
    requires n <= |s| && forall i :: 0 <= i < n ==> IsWhitespace(s[i])
    requires n == |s| || !IsWhitespace(s[n])
    ensures LeadingLength(s) == n
  {
  }

  /** Whitespace appended to a string is removed by trimEnd. */
  lemma TrimEndDropsWhitespaceTail(s: string, w: string)
    requires AllWhitespace(w)
    ensures TrimEnd(s + w) == TrimEnd(s)
  {
    var n := KeptLength(s);
    assert forall i :: n <= i < |s + w| ==> IsWhitespace((s + w)[i]) by {
      forall i | n <= i < |s + w| ensures IsWhitespace((s + w)[i]) {
        if i >= |s| { assert (s + w)[i] == w[i - |s|]; }
      }
    }
    KeptLengthUnique(s + w, n);
    assert (s + w)[..n] == s[..n];
  }

  /** trimEnd only looks at the tail once the tail has a non-whitespace character. */
  lemma TrimEndKeepsHead(a: string, u: string)
    requires TrimEnd(u) != []
    ensures TrimEnd(a + u) == a + TrimEnd(u)
  {
    var n := |a| + KeptLength(u);
    assert forall i :: n <= i < |a + u| ==> IsWhitespace((a + u)[i]) by {
      forall i | n <= i < |a + u| ensures IsWhitespace((a + u)[i]) {
        assert (a + u)[i] == u[i - |a|];
      }
    }
    assert (a + u)[n - 1] == u[KeptLength(u) - 1];
    KeptLengthUnique(a + u, n);
    assert (a + u)[..n] == a + u[..KeptLength(u)];
  }

  /** Leading whitespace before text that starts with a non-whitespace character
      is exactly what trimStart removes. */
  lemma TrimStartStopsAtText(w: string, x: string)
    requires AllWhitespace(w) && x != [] && !IsWhitespace(x[0])
    ensures TrimStart(w + x) == x
  {
    assert (w + x)[|w|] == x[0];
    LeadingLengthUnique(w + x, |w|);
    assert (w + x)[|w|..] == x;
  }

  /** Trimming text framed by whitespace whose fixed head starts with text:
      the frame goes, and only the end of the framed text is trimmed. */
  lemma TrimFramedEnd(lead: string, head: string, u: string, tail: string)
    requires AllWhitespace(lead) && AllWhitespace(tail)
    requires head != [] && !IsWhitespace(head[0])
    ensures Trim(lead + head + u + tail) == TrimEnd(head + u)
  {
    var body := head + u + tail;
    assert lead + head + u + tail == lead + body;
    assert body[0] == head[0];
    TrimStartStopsAtText(lead, body);
    TrimEndDropsWhitespaceTail(head + u, tail);
  }

  /** Trimming text framed by whitespace: the frame goes, and so does the
      whitespace at the end of the variable part `u`. */
  lemma TrimFramed(lead: string, head: string, u: string, tail: string)
    requires AllWhitespace(lead) && AllWhitespace(tail)
    requires head != [] && !IsWhitespace(head[0])
    requires TrimEnd(u) != []
    ensures Trim(lead + head + u + tail) == head + TrimEnd(u)
  {
    var body := head + u + tail;
    assert lead + head + u + tail == lead + body;
    assert body[0] == head[0];
    TrimStartStopsAtText(lead, body);
    TrimEndDropsWhitespaceTail(head + u, tail);
    TrimEndKeepsHead(head, u);
  }
}

=== FILE: system.dfy ===
/** The backend as a whole: the operations that change either agent store,
    replayed from empty stores, and what every reachable state satisfies. */
module System {
  import opened Base
  import opened JsValues
  import opened Io
  import opened AgentModel
  import opened Agents
  import AgentTools
  import Chat

  /** The requests that can change a store. Chat and the listings only read. */
  datatype Op =
    | Create(body: AgentBody, memId: string, dbId: string)
    | Attach(agentId: string, entry: ToolEntry)
    | Detach(agentId: string, key: string)
    | Update(agentId: string, update: AgentBody)
    | Delete(agentId: string)

  const Empty := Store([], Db(map[], map[]))

  function Apply(s: Store, op: Op): Store {
    match op
    case Create(body, memId, dbId) => CreateAgent(s, body, memId, dbId).store
    case Attach(id, entry) => s.(memory := AgentTools.AddTool(s.memory, id, entry).agents)
    case Detach(id, key) => s.(memory := AgentTools.RemoveTool(s.memory, id, key).agents)
    case Update(id, body) => s.(db := UpdateAgent(s.db, id, body).db)
    case Delete(id) => s.(db := DeleteAgent(s.db, id).db)
  }

  function Replay(s: Store, ops: seq<Op>): Store
    decreases |ops|
  {
    if ops == [] then s else Replay(Apply(s, ops[0]), ops[1..])
  }

  /** No in-memory agent's config has a field besides `tools`. */
  predicate Bare(memory: seq<Agent>) {
    forall j :: 0 <= j < |memory| ==> memory[j].config.extra == map[]
  }

  /** Database operations leave the in-memory list alone, and tool operations
      leave the database alone: the two stores never exchange data. */
  lemma StoresStayApart(s: Store, op: Op)
    ensures (op.Update? || op.Delete?) ==> Apply(s, op).memory == s.memory
    ensures (op.Attach? || op.Detach?) ==> Apply(s, op).db == s.db
  {
  }

  /** No request gives an in-memory agent a config field besides `tools`:
      create builds the config from `tools` alone, and the tool requests
      replace only the tools. */
  lemma ApplyKeepsBare(s: Store, op: Op)
    requires Bare(s.memory)
    ensures Bare(Apply(s, op).memory)
  {
  }

  lemma {:induction false} ReplayKeepsBare(s: Store, ops: seq<Op>)
    requires Bare(s.memory)
    ensures Bare(Replay(s, ops).memory)
    decreases |ops|
  {
    if ops != [] {
      ApplyKeepsBare(s, ops[0]);
      ReplayKeepsBare(Apply(s, ops[0]), ops[1..]);
    }
  }

  /** Whatever sequence of requests the backend has served, chat answers 404
      or 500 and never calls the LLM: create stores only `tools` in an agent's
      config, and nothing else ever adds `apiKey` or `model`. */
  lemma ChatNeverReplies(ops: seq<Op>, id: string, message: Value, world: World)
    ensures
      var r := Chat.ChatAgent(Replay(Empty, ops).memory, id, message, world);
      r.response.status in {404, 500} && r.calls == []
  {
    ReplayKeepsBare(Empty, ops);
    Chat.BareAgentsNeverReply(Replay(Empty, ops).memory, id, message, world);
  }

  /** Create does not validate the tools it is given, so the distinct-keys
      invariant holds only when every create request brought distinct keys. */
  predicate CleanCreate(op: Op) {
    op.Create? && op.body.config.Some? ==> UniqueKeys(ToolsOrEmpty(op.body.config.value))
  }

  lemma ApplyKeepsKeysUnique(s: Store, op: Op)
    requires AllKeysUnique(s.memory) && CleanCreate(op)
    ensures AllKeysUnique(Apply(s, op).memory)
  {
    match op
    case Create(body, memId, dbId) =>
    case Attach(id, entry) => AgentTools.AddToolKeepsKeysUnique(s.memory, id, entry);
    case Detach(id, key) => AgentTools.RemoveToolKeepsKeysUnique(s.memory, id, key);
    case Update(_, _) =>
    case Delete(_) =>
  }

  lemma {:induction false} ReplayKeepsKeysUnique(s: Store, ops: seq<Op>)
    requires AllKeysUnique(s.memory)
    requires forall k :: 0 <= k < |ops| ==> CleanCreate(ops[k])
    ensures AllKeysUnique(Replay(s, ops).memory)
    decreases |ops|
  {
    if ops != [] {
      ApplyKeepsKeysUnique(s, ops[0]);
      ReplayKeepsKeysUnique(Apply(s, ops[0]), ops[1..]);
    }
  }

  /** A single create request with a repeated key puts an agent with
      duplicate tool keys into memory. */
  lemma CreateAcceptsDuplicateKeys(e: ToolEntry)
    ensures
      var body := AgentBody(Str("a"), Undefined, Some(ConfigBody(Some([e, e]), map[])));
      !AllKeysUnique(Replay(Empty, [Create(body, "m", "d")]).memory)
  {
    var body := AgentBody(Str("a"), Undefined, Some(ConfigBody(Some([e, e]), map[])));
    var ops := [Create(body, "m", "d")];
    assert ops[1..] == [];
    assert Replay(Empty, ops) == Replay(Apply(Empty, ops[0]), []);
    var s := Apply(Empty, ops[0]);
    assert "d" !in Empty.db.agents;
    assert s.memory[0].config.tools == [e, e];
    var t := s.memory[0].config.tools;
    assert t[0].key == t[1].key;
    assert !UniqueKeys(t);
    assert !AllKeysUnique(s.memory);
  }
}

=== FILE: template.dfy ===
/** The `http` tool's body-template rewrite:
    `bodyTemplate.replace(/\{\{(\w+)\}\}/g, (_, k) => args[k] || "")`.
    The global expression scans left to right. Where the remaining text
    starts with a placeholder, its replacement is emitted and the scan resumes
    after it; otherwise one character is copied. The expression has no
    lookbehind, so whether it matches at a position depends only on the text
    from that position on. */
module Template {
  import opened Base
  import opened JsValues

  /** `\w`: ASCII letters, digits and underscore. */
  predicate IsWordChar(c: char) {
    ('a' <= c <= 'z') || ('A' <= c <= 'Z') || ('0' <= c <= '9') || c == '_'
  }

  predicate IsWord(s: string) {
    |s| >= 1 && forall k :: 0 <= k < |s| ==> IsWordChar(s[k])
  }

  /** A placeholder at the start of the text: the captured name and the
      length of the whole match. */
  datatype Placeholder = Placeholder(name: string, end: nat)

  /** Length of the run of word characters that starts the text (the greedy `\w+`). */
  function WordLength(t: string): (n: nat)
    ensures n <= |t|
    ensures forall k :: 0 <= k < n ==> IsWordChar(t[k])
    ensures n == |t| || !IsWordChar(t[n])
  {
    if |t| > 0 && IsWordChar(t[0]) then 1 + WordLength(t[1..]) else 0
  }

  /** The match of `\{\{(\w+)\}\}` at the start of `t`, if any. */
  function MatchPrefix(t: string): (m: Option<Placeholder>)
    ensures m.Some? ==> 5 <= m.value.end <= |t|
    ensures m.Some? ==> IsWord(m.value.name) && t[..m.value.end] == "{{" + m.value.name + "}}"
  {
    if 2 <= |t| && t[0] == '{' && t[1] == '{' then
      var j := 2 + WordLength(t[2..]);
      if j > 2 && j + 2 <= |t| && t[j] == '}' && t[j + 1] == '}' then
        var name := t[2..j];
        assert t[..j + 2] == "{{" + name + "}}";
        Some(Placeholder(name, j + 2))
      else None
    else None
  }

  /** The converse of MatchPrefix's contract: text that starts with `{{name}}`
      for a word `name` matches, with exactly that name. */
  lemma MatchPrefixComplete(t: string, name: string)
    requires IsWord(name) && |name| + 4 <= |t|
    requires t[..|name| + 4] == "{{" + name + "}}"
    ensures MatchPrefix(t) == Some(Placeholder(name, |name| + 4))
  {
    var s := "{{" + name + "}}";
    assert t[0] == s[0] && t[1] == s[1];
    assert t[2 + |name|] == s[2 + |name|] && t[3 + |name|] == s[3 + |name|];
    forall k | 0 <= k < |name| ensures t[2..][k] == name[k] {
      assert t[2 + k] == s[2 + k];
    }
    assert t[2..][..|name|] == name;
    WordLengthOfWord(t[2..], name);
    assert t[2..2 + |name|] == name;
  }

  lemma {:induction false} WordLengthOfWord(t: string, name: string)
    requires IsWord(name) && |name| < |t| && t[..|name|] == name && !IsWordChar(t[|name|])
    ensures WordLength(t) == |name|
  {
    if |name| > 1 {
      assert t[1..][..|name| - 1] == name[1..];
      assert t[1..][|name| - 1] == t[|name|];
      WordLengthOfWord(t[1..], name[1..]);
    } else {
      assert t[0] == name[0];
      assert t[1..][0] == t[1];
    }
  }

  /** `t.replace(/\{\{(\w+)\}\}/g, (_, k) => f(k))`. When no replacement
      is longer than the placeholder it replaces, the text does not grow. */
  function Subst(t: string, f: string -> string): (r: string)
    ensures (forall k :: |f(k)| <= |k| + 4) ==> |r| <= |t|
    decreases |t|
  {
    if t == [] then []
    else
      match MatchPrefix(t)
      case Some(p) => f(p.name) + Subst(t[p.end..], f)
      case None => [t[0]] + Subst(t[1..], f)
  }

  /** Whether a placeholder occurs anywhere in `t`. */
  predicate HasPlaceholder(t: string) {
    exists i :: 0 <= i <= |t| && MatchPrefix(t[i..]).Some?
  }

  /** The replacement text for placeholder `k`: `args[k] || ""`, converted to
      a string by `replace`. */
  function ArgText(args: map<string, Value>): (f: string -> string)
    ensures forall k :: !Truthy(Get(args, k)) ==> f(k) == ""
    ensures forall k :: Truthy(Get(args, k)) ==> f(k) == ToText(args[k])
  {
    k => ToText(Or(Get(args, k), Str("")))
  }

  /** A template without any placeholder is returned unchanged. */
  lemma {:induction false} NoPlaceholderUnchanged(t: string, f: string -> string)
    requires !HasPlaceholder(t)
    ensures Subst(t, f) == t
    decreases |t|
  {
    if t != [] {
      assert t[0..] == t;
      assert !HasPlaceholder(t[1..]) by {
        forall i | 0 <= i <= |t[1..]| ensures MatchPrefix(t[1..][i..]).None? {
          assert t[1..][i..] == t[i + 1..];
        }
      }
      NoPlaceholderUnchanged(t[1..], f);
      assert t == [t[0]] + t[1..];
    }
  }

  /** Replacing every placeholder by its own source text gives the template
      back: the scan cuts the template into literal characters and whole
      placeholders, with nothing lost or duplicated. */
  lemma {:induction false} SelfReplacementIsIdentity(t: string)
    ensures Subst(t, k => "{{" + k + "}}") == t
    decreases |t|
  {
    if t != [] {
      match MatchPrefix(t)
      case Some(p) =>
        SelfReplacementIsIdentity(t[p.end..]);
        assert t == t[..p.end] + t[p.end..];
      case None =>
        SelfReplacementIsIdentity(t[1..]);
        assert t == [t[0]] + t[1..];
    }
  }

  /** A placeholder is replaced by `f(name)` verbatim, whatever that text
      contains: the replacement is not rescanned, so placeholders that `f`
      produces survive into the result. */
  lemma SinglePass(name: string, rest: string, f: string -> string)
    requires IsWord(name)
    ensures Subst("{{" + name + "}}" + rest, f) == f(name) + Subst(rest, f)
  {
    var t := "{{" + name + "}}" + rest;
    assert t[..|name| + 4] == "{{" + name + "}}";
    MatchPrefixComplete(t, name);
    assert t[|name| + 4..] == rest;
  }

  /** The `http` tool's rewrite: missing or falsy arguments become "". */
  lemma FalsyArgumentsVanish(name: string, args: map<string, Value>)
    requires IsWord(name) && !Truthy(Get(args, name))
    ensures Subst("{{" + name + "}}", ArgText(args)) == ""
  {
    SinglePass(name, "", ArgText(args));
    assert "{{" + name + "}}" + "" == "{{" + name + "}}";
  }
}

=== FILE: tool_invoker.dfy ===
/** `invokeTool` (`services/tools.ts`): a closed switch on the entry's handler. */
module ToolInvoker {
  import opened Base
  import opened JsValues
  import opened Io
  import opened AgentModel
  import Template
  import SlackClient
  import GithubSummarizer

  function AsPlain(s: Settled<string>): (t: Settled<Text>)
    ensures s.Rejected? ==> t == Rejected(s.message)
    ensures s.Fulfilled? ==> t == Fulfilled(Plain(s.value))
  {
    match s
    case Rejected(m) => Rejected(m)
    case Fulfilled(v) => Fulfilled(Plain(v))
  }

  /** The `groqChat` prompt: the configured system prompt (or "" when it is
      falsy) and the caller's `message` argument. */
  function GroqMessages(config: map<string, Value>, args: map<string, Value>): seq<ChatMessage> {
    [ ChatMessage(System, Or(Get(config, "systemPrompt"), Str(""))),
      ChatMessage(User, Get(args, "message")) ]
  }

  /** The request body of the `http` handler: the filled-in body template
      parsed as JSON when a template is configured, the arguments themselves
      otherwise. A truthy template that is not a string has no `replace`. */
  function HttpBody(config: map<string, Value>, args: map<string, Value>, world: World): (b: Settled<Value>)
    ensures !Truthy(Get(config, "bodyTemplate")) ==> b == Fulfilled(Obj(args))
    ensures Get(config, "bodyTemplate").Str? && Truthy(Get(config, "bodyTemplate")) ==>
      b == world.parseJson(Template.Subst(Get(config, "bodyTemplate").s, Template.ArgText(args)))
    ensures Truthy(Get(config, "bodyTemplate")) && !Get(config, "bodyTemplate").Str? ==> b.Rejected?
  {
    var bt := Get(config, "bodyTemplate");
    if !Truthy(bt) then Fulfilled(Obj(args))
    else if bt.Str? then world.parseJson(Template.Subst(bt.s, Template.ArgText(args)))
    else Rejected("bodyTemplate.replace is not a function")
  }

  /** The tool's result for response data: strings verbatim, anything else
      as `JSON.stringify(data, null, 2)`. */
  function DataText(data: Value): (t: Text)
    ensures data.Str? ==> t == Plain(data.s)
    ensures !data.Str? ==> t == JsonText(data, 2)
  {
    if data.Str? then Plain(data.s) else JsonText(data, 2)
  }

  /** The `http` handler. */
  function HttpTool(config: map<string, Value>, args: map<string, Value>, world: World): (r: Run<Text>)
    ensures HttpBody(config, args, world).Rejected? ==>
      r == Run(Rejected(HttpBody(config, args, world).message), [])
    ensures HttpBody(config, args, world).Fulfilled? ==>
      var body := HttpBody(config, args, world).value;
      var url, verb, headers := Get(config, "url"), Get(config, "method"), Get(config, "headers");
      && r.calls == [HttpRequest(url, verb, headers, body)]
      && (world.request(url, verb, headers, body).Fulfilled? ==>
            r.result == Fulfilled(DataText(world.request(url, verb, headers, body).value)))
      && (world.request(url, verb, headers, body).Rejected? ==>
            r.result == Rejected(world.request(url, verb, headers, body).message))
  {
    var url, verb, headers := Get(config, "url"), Get(config, "method"), Get(config, "headers");
    match HttpBody(config, args, world)
    case Rejected(m) => Run(Rejected(m), [])
    case Fulfilled(body) =>
      var call := HttpRequest(url, verb, headers, body);
      match world.request(url, verb, headers, body)
      case Rejected(m) => Run(Rejected(m), [call])
      case Fulfilled(data) => Run(Fulfilled(DataText(data)), [call])
  }

  /** The four handler names the `switch` matches with `===`. */
  predicate KnownHandler(h: Value) {
    h == Str("githubSummarizer") || h == Str("slackNotifier") || h == Str("groqChat") || h == Str("http")
  }

  /** The first property each handler reads from `entry.config`. */
  function FirstField(h: Value): string {
    if h == Str("githubSummarizer") then "owner"
    else if h == Str("slackNotifier") then "webhookUrl"
    else if h == Str("groqChat") then "systemPrompt"
    else "url"
  }

  /** The TypeError (in V8's wording) a handler throws when `entry.config` is
      `null` or `undefined`. The Slack and `http` handlers destructure the
      config; the other two read a property of it. */
  function ConfigError(h: Value, config: Value): string {
    if h == Str("slackNotifier") || h == Str("http") then
      "Cannot destructure property '" + FirstField(h) + "' of 'entry.config' as it is " + ToText(config) + "."
    else
      "Cannot read properties of " + ToText(config) + " (reading '" + FirstField(h) + "')"
  }

  /** `invokeTool(entry, args)` */
  function InvokeTool(entry: ToolEntry, args: map<string, Value>, env: Env, world: World): (r: Run<Text>)
    ensures !KnownHandler(entry.handler) ==>
      r == Run(Rejected("Unknown handler: " + ToText(entry.handler)), [])
    ensures KnownHandler(entry.handler) && Nullish(entry.config) ==>
      r == Run(Rejected(ConfigError(entry.handler, entry.config)), [])
    ensures entry.handler == Str("githubSummarizer") && !Nullish(entry.config) ==>
      var s := GithubSummarizer.SummarizePr(OwnFields(entry.config), Get(args, "prNumber"), env, world);
      r == Run(AsPlain(s.result), s.calls)
    ensures entry.handler == Str("githubSummarizer") ==> LlmCalls(r.calls) <= 1
    ensures entry.handler == Str("groqChat") && !Nullish(entry.config) ==>
      var cfg := OwnFields(entry.config);
      var apiKey, model := Get(cfg, "apiKey"), Get(cfg, "model");
      var msgs := GroqMessages(cfg, args);
      && r.calls == [LlmCall(apiKey, model, msgs)]
      && r.result == AsPlain(world.chatCompletion(apiKey, model, msgs))
    ensures entry.handler == Str("slackNotifier") && !Nullish(entry.config) ==>
      var cfg := OwnFields(entry.config);
      && r == SlackClient.PostToSlack(Get(cfg, "webhookUrl"), Get(cfg, "channel"), world)
      && r.calls == [WebhookPost(Get(cfg, "webhookUrl"), SlackClient.Payload(Get(cfg, "channel")))]
    ensures entry.handler == Str("http") && !Nullish(entry.config) ==>
      r == HttpTool(OwnFields(entry.config), args, world)
  {
    var h := entry.handler;
    if !KnownHandler(h) then
      Run(Rejected("Unknown handler: " + ToText(h)), [])
    else if Nullish(entry.config) then
      Run(Rejected(ConfigError(h, entry.config)), [])
    else
      var cfg := OwnFields(entry.config);
      if h == Str("githubSummarizer") then
        var s := GithubSummarizer.SummarizePr(cfg, Get(args, "prNumber"), env, world);
        Run(AsPlain(s.result), s.calls)
      else if h == Str("slackNotifier") then
        // The call site passes three arguments, `(webhookUrl, channel, args.text)`,
        // to the two-parameter `postToSlack(webhookUrl, text)`: the configured
        // channel is posted as the message text and `args.text` is dropped.
        SlackClient.PostToSlack(Get(cfg, "webhookUrl"), Get(cfg, "channel"), world)
      else if h == Str("groqChat") then
        var apiKey, model := Get(cfg, "apiKey"), Get(cfg, "model");
        var msgs := GroqMessages(cfg, args);
        Run(AsPlain(world.chatCompletion(apiKey, model, msgs)), [LlmCall(apiKey, model, msgs)])
      else
        HttpTool(cfg, args, world)
  }

  /** Dispatch reads the handler and the config, never the key or the entry's
      other fields. */
  lemma DispatchIgnoresKey(entry: ToolEntry, key: string, rest: map<string, Value>, args: map<string, Value>, env: Env, world: World)
    ensures InvokeTool(entry.(key := key, rest := rest), args, env, world) == InvokeTool(entry, args, env, world)
  {
  }

  /** A summarizer entry asked about a pull request that GitHub reports
      missing answers with the fixed sentence, after the one fetch and without
      asking the LLM. */
  lemma SummarizerMissingPull(entry: ToolEntry, args: map<string, Value>, env: Env, world: World)
    requires entry.handler == Str("githubSummarizer") && !Nullish(entry.config)
    requires Get(args, "prNumber") != Str("latest") && Get(args, "prNumber") != GithubSummarizer.NoPull
    requires
      var cfg, n := OwnFields(entry.config), Get(args, "prNumber");
      && world.getPull(GithubSummarizer.PullUrl(cfg, n)).Fulfilled?
      && world.getPull(GithubSummarizer.PullUrl(cfg, n)).value.status.code == 404
    ensures
      var cfg, n := OwnFields(entry.config), Get(args, "prNumber");
      InvokeTool(entry, args, env, world)
        == Run(Fulfilled(Plain(GithubSummarizer.MissingPullSentence(cfg, n))),
               [GitHubGet(GithubSummarizer.PullUrl(cfg, n), GithubSummarizer.Authorization(env))])
    ensures LlmCalls(InvokeTool(entry, args, env, world).calls) == 0
  {
  }

  /** As written, the Slack handler's outcome does not depend on the caller's
      arguments at all: `args.text` never reaches the webhook, and the record's
      `text` is the configured channel. */
  lemma SlackPostsChannel(entry: ToolEntry, args: map<string, Value>, args': map<string, Value>, env: Env, world: World)
    requires entry.handler == Str("slackNotifier")
    ensures InvokeTool(entry, args, env, world) == InvokeTool(entry, args', env, world)
    ensures
      var cfg := OwnFields(entry.config);
      var url, channel := Get(cfg, "webhookUrl"), Get(cfg, "channel");
      !Nullish(entry.config) && world.postWebhook(url, SlackClient.Payload(channel)).Fulfilled? ==>
        InvokeTool(entry, args, env, world).result
          == Fulfilled(JsonText(SlackClient.AsJson(SlackClient.BuildResponse(
               world.postWebhook(url, SlackClient.Payload(channel)).value, channel)), 0))
  {
  }

  /** A Slack POST that fails makes the tool fail with the same error, after
      that one POST. */
  lemma SlackFailureRethrown(entry: ToolEntry, args: map<string, Value>, env: Env, world: World)
    requires entry.handler == Str("slackNotifier") && !Nullish(entry.config)
    requires
      var cfg := OwnFields(entry.config);
      world.postWebhook(Get(cfg, "webhookUrl"), SlackClient.Payload(Get(cfg, "channel"))).Rejected?
    ensures
      var cfg := OwnFields(entry.config);
      var post := world.postWebhook(Get(cfg, "webhookUrl"), SlackClient.Payload(Get(cfg, "channel")));
      InvokeTool(entry, args, env, world)
        == Run(Rejected(post.message), [WebhookPost(Get(cfg, "webhookUrl"), SlackClient.Payload(Get(cfg, "channel")))])
  {
  }

  /** Without a body template the `http` handler sends the arguments object
      itself as the request body. */
  lemma HttpWithoutTemplateSendsArgs(entry: ToolEntry, args: map<string, Value>, env: Env, world: World)
    requires entry.handler == Str("http") && !Nullish(entry.config)
    requires !Truthy(Get(OwnFields(entry.config), "bodyTemplate"))
    ensures |InvokeTool(entry, args, env, world).calls| == 1
    ensures InvokeTool(entry, args, env, world).calls[0].HttpRequest?
    ensures InvokeTool(entry, args, env, world).calls[0].body == Obj(args)
  {
  }

  /** The `http` handler's response text: string data verbatim, other data
      as its indented JSON serialisation. */
  lemma HttpResponseText(entry: ToolEntry, args: map<string, Value>, env: Env, world: World)
    requires entry.handler == Str("http") && !Nullish(entry.config)
    requires HttpBody(OwnFields(entry.config), args, world).Fulfilled?
    requires
      var c := OwnFields(entry.config);
      world.request(Get(c, "url"), Get(c, "method"), Get(c, "headers"), HttpBody(c, args, world).value).Fulfilled?
    ensures
      var c := OwnFields(entry.config);
      var data := world.request(Get(c, "url"), Get(c, "method"), Get(c, "headers"), HttpBody(c, args, world).value).value;
      && (data.Str? ==> InvokeTool(entry, args, env, world).result == Fulfilled(Plain(data.s)))
      && (!data.Str? ==> InvokeTool(entry, args, env, world).result == Fulfilled(JsonText(data, 2)))
  {
  }
}
